=== FILE: README.md ===
# rogu — a Dafny model of the game core

rogu is a small terminal-style roguelike. A tkinter window redraws a
`width` x `height` grid of characters after each key press. Behind it, a list
of entities lives on an integer grid:

- **Walls** block the player.
- **Flames** burn for one step.
- **Bombs** count down and then explode into a cross of flames.
- **TNT** sits still until a flame reaches it, then explodes into a 6 x 6 block of flames.
- **The Player** moves with the arrow keys, drops a Bomb with `a` and TNT with `d`, and dies in a flame.

One key press runs `Rogue.loop`, which works in four parts:

1. It copies the collection.
2. It ticks every entity of the original collection, in order. Each tick works on the copy and reads the index built in the *previous* step.
3. It rebuilds the index (`query`, cell to list of entities) from the copy.
4. It renders one character per cell. That character is the glyph of the entity with the greatest `z`, or `.` for a cell with no entity.

The model covers that core. The modules are:

- `Entities`: the five kinds as one datatype, with their glyphs.
- `Collection`: the list `objs`, with Python's `remove`, `in` and `append`.
- `SpatialIndex`: the rebuild of `query`.
- `Ticks`: the `tick` and `detonate` rules.
- `Frame`: `render`.
- `Rogue`: one step, the starting collection, and the shell's frame-length check.
- `StepFacts`, `TickFacts`, `ReactionFacts`, `WallFacts` and `Scenarios`: what is proved about them.

How state is represented:

- **Entities.** Python entities are mutable objects that the old list, the copy and the previous index all share. The model keeps a *store* of entity values, indexed by `Id`, and lists ids.
- **Mutation.** A mutation (`self.secs -= 1`, `obj.dead = True`, a move) replaces the value behind one id, so all three views see it, as in Python.
- **Equality.** Dataclass equality is structural. So `objs.remove(e)` and `e in objs` compare *values*, and the model does too: `Collection.Remove` drops the first value-equal entry.
- **Exceptions.** Every Python exception the core can raise is an `Err` of `Result`:
  - `ValueError` from `list.remove`, when the entity is no longer listed;
  - `ValueError` from the shell's length check;
  - `AttributeError` from `maxobj.char` when `maxobj` is still `None`.

Behaviours the code has and the model keeps:

- **A crash when two flames reach one wall.** The first Flame's `objs.remove(obj)` removes the Wall. The second Flame, reading the previous index, tries again and raises ValueError, which aborts the step (`Scenarios.SecondFlameOnWallRaises`). Two overlapping blasts on a Wall are enough to cause it. The exception leaves `self.objects` and `self.query` unassigned, so the next key press ticks the same Flames against the same index and raises again. The scenario lemma holds for every key, so the game never gets past that step.
- **A destroyed wall still blocks.** The player is blocked by any Wall the previous index lists at the target cell, even one a Flame removed earlier in the same step.
- **A second detonation appends a second blast.** A Bomb or TNT detonated twice in one step appends its flames twice. When no other listed entity is value-equal to it, it is removed only once (`TickFacts.RepeatDetonation`). When a value-equal twin is listed, for example a TNT dropped on the cell of an older TNT, the second detonation removes the twin.
- **A Bomb given a negative countdown never explodes on its own.** Only `secs == 0` detonates, so such a Bomb counts down forever. Bombs the player drops start at 4 and explode when they reach 0, so only a Bomb placed in the starting list with a negative countdown behaves this way.
- **The first of equal maxima is drawn.** The render loop replaces its pick only on a strictly greater `z`, so among equal maxima the first listed entity is drawn. The model follows the code.
- **A cell whose entities all have `z <= 0` raises.** Such a cell leaves `maxobj` as `None`, and reading its glyph raises AttributeError.

## Model

| member | source | states |
|---|---|---|
| Entities.Glyph | main.py:85-167 | Each kind's glyph: `#` Wall, `*` Flame, `o` Bomb, `/` TNT, `@` live Player, `x` dead Player, each as an if-and-only-if on the kind and the `dead` flag |
| Collection.FirstIndex | main.py:103 | The position found holds a value equal to `e` and no earlier position does; None means no listed value equals `e` |
| Collection.Remove | main.py:103-107 | `objs.remove(e)` fails with ValueError exactly when no listed value equals `e`; otherwise it deletes exactly the first equal entry and leaves every entity value untouched |
| Collection.RemoveIfPresent | main.py:129-130 | `if e in objs: objs.remove(e)` never fails: without an equal entry nothing changes, with one it is the same as `remove` |
| Collection.SpawnAll | main.py:124-128 | Appending new entities puts their values after the store and their fresh ids, in order, after the collection |
| SpatialIndex.BuildIndexGroups | main.py:237-243 | The rebuilt index has a key exactly for the occupied cells, and each cell's list is the collection filtered to that cell, in collection order |
| SpatialIndex.BuildIndexMembership | main.py:237-243 | An id is listed at cell `c` exactly when it is in the collection and its entity is at `c` |
| SpatialIndex.BuildIndexUnique | main.py:237-243 | Any index that groups the collection by cell in order is the one the rebuild loop produces |
| Ticks.Blast | main.py:123-130 | A detonation appends its flames under fresh ids after the remaining entries, and removes the detonating entity's first equal entry only if one is still listed |
| Ticks.Scorch | main.py:105-111 | A Flame's effect on one listed entity. A Wall's first equal entry is removed, and ValueError is raised exactly when none is listed. A Flame is ignored. A Bomb or TNT never raises: its blast is appended under fresh ids after the remaining entries, and its first equal entry is removed when one is listed. A Player is marked dead in place and nothing else changes |
| Ticks.FlameTick | main.py:103 | A Flame whose own value is no longer listed raises ValueError at `objs.remove(self)` |
| Ticks.BombTick | main.py:132-136 | A nonzero countdown decreases by one and nothing else changes; at zero the Bomb detonates |
| Ticks.Heading | main.py:174-181 | An arrow key moves by exactly one cell along exactly one axis: `Left` lowers x, `Right` raises x, `Up` lowers y, `Down` raises y. Any other key does not move the player |
| Ticks.PlayerTick | main.py:169-192 | A dead player changes nothing. A live player moves to the target cell unless the previous index lists a Wall there. `a` appends one Bomb with fuse 4 and `d` one TNT on the old cell. Other keys append nothing, and no other entity changes |
| Ticks.Tick | main.py:89-154 | Walls and TNT do nothing when ticked. A Bomb, Player or Flame follows its own rule (`BombTick`, `PlayerTick`, `FlameTick`), and only a Flame's tick can raise |
| Frame.Top | main.py:221-226 | The picked position has positive `z`, no listed `z` exceeds it, and every earlier `z` is strictly smaller (first of equal maxima); no pick exactly when no `z` is positive |
| Frame.CellGlyph | main.py:220-229 | A cell outside the index is `.`; a listed cell fails with AttributeError exactly when all its `z` are <= 0, otherwise it is the glyph of the top entity |
| Frame.RenderOk | main.py:215-230 | A frame is produced exactly when every visible cell has a glyph |
| Frame.RenderLength | main.py:215-230 | A produced frame has exactly `width * height` characters |
| Frame.RenderCell | main.py:215-230 | Character `y * width + x` of a produced frame is the glyph of cell `(x, y)`: rows top to bottom, cells left to right |
| Rogue.Init | main.py:197-213 | A fresh game keeps the given window size and lists the given entities in order, each under its own id: no two positions share an id, so no two entries alias one object. Its index is empty |
| Rogue.Start | main.py:197-213 | The default game is well formed, has an 80 x 24 window and an empty index, and lists 14 entities: a live Player at (5, 5), Walls from (10, 10) up to (10, 4), then Walls from (9, 4) left to (4, 4) |
| Rogue.TickAllSplit | main.py:234-235 | Ticking `a + b` ticks all of `a` first and then all of `b` against the same index, stopping at the first exception |
| Rogue.Display | main.py:42-46 | The shell accepts a frame exactly when its length is `width * height` and raises ValueError otherwise |
| Rogue.StepFrame | main.py:232-247 | Every frame a step returns passes the shell's length check, and the new index groups exactly the new collection by cell |
| Rogue.StepCell | main.py:232-247 | In a step's frame, character `y * width + x` is what the compositor draws at `(x, y)` from the new index |
| StepFacts.StepInvariant | main.py:232-236 | After a step, old entities have changed only in allowed ways, new entities still hold their creation values, and no old Flame value is still listed under an old id |
| StepFacts.StepRemovesFlames | main.py:232-236 | Every Flame in the collection at the start of a step is gone after it |
| StepFacts.StepEvolves | main.py:232-236 | Walls, TNT and Flames never change; a Bomb keeps its cell; a Player keeps its `z`; a dead Player never changes, so `dead` is never reset |
| StepFacts.StepSpawnsUnticked | main.py:233-235 | Entities created during a step are not ticked in it. Each is a Flame, a TNT, or a Bomb with the full fuse of 4, at `z` 100. Every Flame created in the step is still listed after it, so chain reactions wait for the next step |
| StepFacts.StepIdle | main.py:232-247 | With only Walls, TNT and Players listed, a key nothing reacts to changes no entity. Repeating it gives the same game and the same frame |
| TickFacts.CrossShape | main.py:123-128 | A Bomb's blast is five Flames at `z` 100 covering exactly the cells within one orthogonal step of the bomb |
| TickFacts.BlockShape | main.py:146-149 | A TNT blast is 36 Flames at `z` 100 on distinct cells, covering exactly `x-3 .. x+2` by `y-3 .. y+2` |
| TickFacts.RepeatDetonation | main.py:123-151 | When at most one listed entry equals the entity, a first detonation leaves no copy of it listed. A second one appends another full blast and removes nothing |
| TickFacts.ScorchAllKills | main.py:104-111 | After a completed reaction loop, every Player in the reacted list is dead |
| TickFacts.FlameKillsPlayers | main.py:102-111 | A Flame that completes its tick has marked dead every Player listed at its cell |
| TickFacts.ScorchAllMissingWall | main.py:105-107 | A reaction loop that reaches a Wall no longer in the collection raises ValueError |
| TickFacts.FlameOnVanishedWall | main.py:102-107 | A Flame whose cell lists a Wall already removed from the collection raises ValueError |
| ReactionFacts.ScorchAllAppends | main.py:104-109 | A completed reaction loop has appended the blasts of the Bombs and TNT it reached, in listing order, and has changed no stored entity except Players |
| ReactionFacts.ScorchAllCountsWalls | main.py:104-107 | After a completed reaction loop, each Wall value has as many fewer entries as the loop listed it |
| ReactionFacts.FlameTickEffect | main.py:102-111 | A completed Flame tick had its own value listed. It removed that entry first and then reacted with everything the previous index lists at its cell. It appended the blasts of the Bombs and TNT listed there, in listing order, and removed one entry of a Wall value per listing |
| WallFacts.TickAllWalls | main.py:233-235 | Over a completed tick loop, each Wall value loses exactly the number of times the previous index lists it at the cells of the Flames ticked; no other tick removes a Wall |
| WallFacts.StepWalls | main.py:232-236 | Over a completed step, each Wall value's entries drop by exactly the number of times the previous index lists it at the cell of a Flame listed when the step began, so a Wall is removed if and only if such a Flame's cell lists it |
| WallFacts.StepKeepsUnburntWalls | main.py:232-236 | A Wall value that no old Flame's indexed cell lists keeps all its entries over a step |
| Scenarios.SecondFlameOnWallRaises | main.py:102-107 | Two Flames on one Wall's cell make the whole step raise ValueError |

## Left out

- The tkinter shell (`Game.__init__`, `run`, the window, the fonts and the printing) is left out. It is I/O. Only the length check of `Game._render` is modelled.
- The key event is reduced to its `keysym` string. The list of keys the shell binds is not modelled, so a step can be taken for any key string.
- Python mutates entities and the list in place before an exception propagates. After a raising step, objects already ticked keep their changes, and `query` is already rebuilt when `render` raises. The model returns `Err` and drops that partial state.
- `Drawable.char`, `Drawable.tick` and `Game.loop` are the base-class defaults (`'Z'` and `NotImplementedError`). No concrete entity reaches them.
- The unused imports (`random`, `string`, `reduce`, `replace`, `List`) are left out.
- Object identity is not modelled. Every comparison the core makes is dataclass value equality.
- Rogue.Step: its contract states only that a step keeps the window size and a well-formed game. What a step does is stated by `StepFrame`, `StepCell` and the `StepFacts` lemmas.
- Ticks.Detonate and Ticks.ScorchAll: their own contracts state only well-formedness. Their behaviour is stated elsewhere:
  - `Detonate` by `Blast`, `Scorch` and `RepeatDetonation`;
  - `ScorchAll` by `ScorchAllAppends`, `ScorchAllCountsWalls`, `ScorchAllKills` and `ScorchAllMissingWall`.
  Which Bomb or TNT entries a loop removes is stated one reaction at a time (`Scorch`), not as a total over the loop.
- The width and height of the window are natural numbers. A negative size, which tkinter would reject, is not modelled.

=== FILE: collection.dfy ===
/** The working entity collection of one step.

    Python keeps entity objects in lists and mutates them through shared
    references. Here every entity lives in an arena `store` under a stable
    `Id`, and a collection is a sequence of ids. Writing `store[id]` is the
    in-place field mutation every holder of the reference observes; removing
    an id from `objs` leaves the entity in the store, just as the Python
    object stays alive while the previous index still lists it. */
module Collection {
  import opened Wrappers
  import opened Entities

  datatype Work = Work(objs: seq<Id>, store: seq<Entity>)

  /** Every id in `ids` names an entity of a store of size `n`. */
  predicate ValidIds(ids: seq<Id>, n: nat) {
    forall i :: 0 <= i < |ids| ==> ids[i] < n
  }

  predicate Valid(w: Work) {
    ValidIds(w.objs, |w.store|)
  }

  /** Python's `e in objs`: some listed entity is value-equal to `e`. */
  predicate Holds(w: Work, e: Entity)
    requires Valid(w)
  {
    exists i :: 0 <= i < |w.objs| && w.store[w.objs[i]] == e
  }

  /** `s` without its element at position `i`. */
  function Delete(s: seq<Id>, i: nat): (r: seq<Id>)
    requires i < |s|
    ensures |r| == |s| - 1
    ensures forall k :: 0 <= k < i ==> r[k] == s[k]
    ensures forall k :: i <= k < |r| ==> r[k] == s[k + 1]
  {
    s[..i] + s[i + 1..]
  }

  lemma DeleteAppend(s: seq<Id>, t: seq<Id>, i: nat)
    requires i < |s|
    ensures Delete(s + t, i) == Delete(s, i) + t
  {
    assert (s + t)[..i] == s[..i];
    assert (s + t)[i + 1..] == s[i + 1..] + t;
  }

  /** Position of the first listed entity value-equal to `e`. */
  function FirstIndex(objs: seq<Id>, store: seq<Entity>, e: Entity): (r: Option<nat>)
    requires ValidIds(objs, |store|)
    ensures r.Some? ==> r.value < |objs| && store[objs[r.value]] == e
    ensures r.Some? ==> forall j :: 0 <= j < r.value ==> store[objs[j]] != e
    ensures r.None? ==> forall j :: 0 <= j < |objs| ==> store[objs[j]] != e
  {
    if |objs| == 0 then None
    else if store[objs[0]] == e then Some(0)
    else
      match FirstIndex(objs[1..], store, e)
      case None => None
      case Some(i) => Some(i + 1)
  }

  /** Python's `objs.remove(e)`: drops the first value-equal entry and raises
      ValueError when there is none. The store is untouched. */
  function Remove(w: Work, e: Entity): (r: Result<Work>)
    requires Valid(w)
    ensures r.Err? <==> !Holds(w, e)
    ensures r.Err? ==> r.error == ValueError
    ensures r.Ok? ==> r.value.store == w.store && Valid(r.value)
    ensures r.Ok? ==> exists i :: && 0 <= i < |w.objs|
                                  && w.store[w.objs[i]] == e
                                  && (forall j :: 0 <= j < i ==> w.store[w.objs[j]] != e)
                                  && r.value.objs == Delete(w.objs, i)
  {
    match FirstIndex(w.objs, w.store, e)
    case None => Err(ValueError)
    case Some(i) => Ok(Work(Delete(w.objs, i), w.store))
  }

  /** Python's `if e in objs: objs.remove(e)`, which never raises. */
  function RemoveIfPresent(w: Work, e: Entity): (r: Work)
    requires Valid(w)
    ensures Valid(r) && r.store == w.store
    ensures !Holds(w, e) ==> r == w
    ensures Holds(w, e) ==> Remove(w, e) == Ok(r)
  {
    match FirstIndex(w.objs, w.store, e)
    case None => w
    case Some(i) => Work(Delete(w.objs, i), w.store)
  }

  /** Python's `objs.append(e)` of a newly constructed entity: it gets the
      next fresh id. */
  function Spawn(w: Work, e: Entity): (r: Work)
    requires Valid(w)
    ensures Valid(r)
    ensures r.store == w.store + [e] && r.objs == w.objs + [|w.store|]
  {
    Work(w.objs + [|w.store|], w.store + [e])
  }

  /** The ids `start, start + 1, ..., start + n - 1`. */
  function Fresh(start: nat, n: nat): (r: seq<Id>)
    ensures |r| == n && forall k :: 0 <= k < n ==> r[k] == start + k
  {
    seq(n, k requires 0 <= k < n => start + k)
  }

  /** Appends `es` one after another, each under a fresh id. */
  function SpawnAll(w: Work, es: seq<Entity>): (r: Work)
    requires Valid(w)
    ensures Valid(r)
    ensures r.store == w.store + es
    ensures r.objs == w.objs + Fresh(|w.store|, |es|)
    decreases |es|
  {
    if |es| == 0 then w
    else SpawnAll(Spawn(w, es[0]), es[1..])
  }

  /** Overwrites the entity behind `id`: an in-place field assignment. */
  function Put(w: Work, id: Id, e: Entity): (r: Work)
    requires Valid(w) && id < |w.store|
    ensures Valid(r) && r.objs == w.objs && |r.store| == |w.store|
    ensures r.store[id] == e
    ensures forall j :: 0 <= j < |w.store| && j != id ==> r.store[j] == w.store[j]
  {
    Work(w.objs, w.store[id := e])
  }
}

=== FILE: entities.dfy ===
/** The five entity kinds of the game and their static attributes.

    Every Python entity is a dataclass with integer fields `x`, `y`, `z`;
    `Bomb` adds a countdown `secs` and `Player` a `dead` flag. Dataclass
    equality compares the class and then the field tuple, which is exactly
    Dafny's structural equality on `Entity`. */
module Entities {

  /** Stable handle of an entity: its position in the store (see Collection). */
  type Id = nat

  /** A grid cell `(x, y)`; coordinates are unbounded integers. */
  type Pos = (int, int)

  /** Default draw priority of a Wall. */
  const WallZ: int := 1
  /** Draw priority of every Flame, Bomb, TNT and Player the game creates. */
  const TopZ: int := 100
  /** Countdown of a freshly placed Bomb. */
  const BombFuse: int := 4

  datatype Entity =
    | Wall(x: int, y: int, z: int)
    | Flame(x: int, y: int, z: int)
    | Bomb(x: int, y: int, z: int, secs: int)
    | TNT(x: int, y: int, z: int)
    | Player(x: int, y: int, z: int, dead: bool)
  {
    /** The cell the entity occupies. */
    function Cell(): Pos {
      (x, y)
    }
  }

  /** The character drawn for an entity (its `char` property); it
      identifies the kind and, for a Player, whether it is dead. */
  function Glyph(e: Entity): (c: char)
    ensures c == '#' <==> e.Wall?
    ensures c == '*' <==> e.Flame?
    ensures c == 'o' <==> e.Bomb?
    ensures c == '/' <==> e.TNT?
    ensures c == 'x' <==> e.Player? && e.dead
    ensures c == '@' <==> e.Player? && !e.dead
  {
    match e
    case Wall(_, _, _) => '#'
    case Flame(_, _, _) => '*'
    case Bomb(_, _, _, _) => 'o'
    case TNT(_, _, _) => '/'
    case Player(_, _, _, dead) => if dead then 'x' else '@'
  }

  /** Both entities are of the same kind (`isinstance` never changes). */
  predicate SameKind(a: Entity, b: Entity) {
    && (a.Wall? <==> b.Wall?)
    && (a.Flame? <==> b.Flame?)
    && (a.Bomb? <==> b.Bomb?)
    && (a.TNT? <==> b.TNT?)
    && (a.Player? <==> b.Player?)
  }
}

=== FILE: frame.dfy ===
/** The frame compositor `Rogue.render`: one character per visible cell,
    row by row, `'.'` for an empty cell and otherwise the glyph of the entity
    with the greatest z. */
module Frame {
  import opened Wrappers
  import opened Entities
  import opened Collection
  import opened SpatialIndex

  /** Glyph of a cell the index does not list. */
  const Background: char := '.'

  /** Position `i` of `ids` holds the entity the compositor picks: its z is
      positive, no listed z exceeds it, and every earlier z is strictly
      smaller (the first of several equal maxima wins). */
  ghost predicate IsTop(ids: seq<Id>, store: seq<Entity>, i: int)
    requires ValidIds(ids, |store|)
  {
    && 0 <= i < |ids|
    && store[ids[i]].z > 0
    && (forall j :: 0 <= j < |ids| ==> store[ids[j]].z <= store[ids[i]].z)
    && (forall j :: 0 <= j < i ==> store[ids[j]].z < store[ids[i]].z)
  }

  /** The `maxz`/`maxobj` loop: starting from `maxz = 0` and no pick, an
      entity replaces the pick when its z is strictly greater. Returns the
      position of the pick, or None when no z is positive. */
  function Top(ids: seq<Id>, store: seq<Entity>): (r: Option<nat>)
    requires ValidIds(ids, |store|)
    ensures forall i :: IsTop(ids, store, i) <==> r == Some(i)
    ensures r.None? <==> forall j :: 0 <= j < |ids| ==> store[ids[j]].z <= 0
    decreases |ids|
  {
    if |ids| == 0 then None
    else
      var init := ids[..|ids| - 1];
      assert forall j :: 0 <= j < |init| ==> init[j] == ids[j];
      var t := Top(init, store);
      var maxz := if t.None? then 0 else store[ids[t.value]].z;
      if store[ids[|ids| - 1]].z > maxz then Some(|ids| - 1) else t
  }

  /** What `render` draws at cell `(x, y)`. A listed cell whose entities all
      have z <= 0 leaves `maxobj` at None, and reading its `char` raises. */
  function CellGlyph(index: Index, store: seq<Entity>, x: int, y: int): (r: Result<char>)
    requires IndexValid(index, |store|)
    ensures (x, y) !in index ==> r == Ok(Background)
    ensures (x, y) in index ==>
              (r.Err? <==> forall j :: 0 <= j < |index[(x, y)]| ==> store[index[(x, y)][j]].z <= 0)
    ensures (x, y) in index && r.Ok? ==>
              exists i :: IsTop(index[(x, y)], store, i) && r.value == Glyph(store[index[(x, y)][i]])
    ensures r.Err? ==> r.error == AttributeError
  {
    if (x, y) in index then
      var ids := index[(x, y)];
      assert ValidIds(ids, |store|);
      match Top(ids, store)
      case None => Err(AttributeError)
      case Some(i) => Ok(Glyph(store[ids[i]]))
    else Ok(Background)
  }

  /** A grid of cells, each drawn as a character or failing. */
  type Grid = (int, int) -> Result<char>

  /** Cells `(0, y) .. (n - 1, y)` of row `y`, left to right. */
  function RenderRow(cell: Grid, y: int, n: nat): Result<string>
  {
    if n == 0 then Ok("")
    else
      var row :- RenderRow(cell, y, n - 1);
      var c :- cell(n - 1, y);
      Ok(row + [c])
  }

  /** Rows `0 .. n - 1`, each `width` cells wide, top to bottom. */
  function RenderRows(cell: Grid, width: nat, n: nat): Result<string>
  {
    if n == 0 then Ok("")
    else
      var rows :- RenderRows(cell, width, n - 1);
      var row :- RenderRow(cell, n - 1, width);
      Ok(rows + row)
  }

  /** The cells `render` draws for an index. */
  function Cells(index: Index, store: seq<Entity>): Grid
    requires IndexValid(index, |store|)
  {
    (x, y) => CellGlyph(index, store, x, y)
  }

  lemma CellsApply(index: Index, store: seq<Entity>)
    requires IndexValid(index, |store|)
    ensures forall x, y :: Cells(index, store)(x, y) == CellGlyph(index, store, x, y)
  {
  }

  /** `Rogue.render` for a `width` x `height` window. */
  function Render(index: Index, store: seq<Entity>, width: nat, height: nat): Result<string>
    requires IndexValid(index, |store|)
  {
    RenderRows(Cells(index, store), width, height)
  }

  lemma {:induction false} RowShape(cell: Grid, y: int, n: nat)
    ensures RenderRow(cell, y, n).Ok? <==> forall x :: 0 <= x < n ==> cell(x, y).Ok?
    ensures RenderRow(cell, y, n).Ok? ==>
              var row := RenderRow(cell, y, n).value;
              |row| == n && forall x :: 0 <= x < n ==> row[x] == cell(x, y).value
  {
    if n > 0 {
      RowShape(cell, y, n - 1);
    }
  }

  /** `y` rows of `w` cells, counted by repeated addition so that the row
      lemmas stay within linear arithmetic. */
  function Mul(y: nat, w: nat): nat
  {
    if y == 0 then 0 else Mul(y - 1, w) + w
  }

  lemma {:induction false} MulIs(y: nat, w: nat)
    ensures Mul(y, w) == y * w
  {
    if y > 0 {
      MulIs(y - 1, w);
      assert (y - 1) * w + w == y * w;
    }
  }

  lemma {:induction false} MulMono(a: nat, b: nat, w: nat)
    requires a <= b
    ensures Mul(a, w) <= Mul(b, w)
    decreases b
  {
    if a < b {
      MulMono(a, b - 1, w);
    }
  }

  /** Offset `Mul(y, width) + x` of `rows + row`, where `rows` holds `n`
      rows of `width` characters, falls in `rows` for `y < n` and in `row`
      for `y == n`. */
  lemma AppendRow(rows: string, row: string, width: nat, n: nat, x: int, y: nat)
    requires |rows| == Mul(n, width) && |row| == width
    requires 0 <= x < width && y <= n
    ensures Mul(y, width) + x < |rows + row|
    ensures y < n ==> Mul(y, width) + x < |rows| && (rows + row)[Mul(y, width) + x] == rows[Mul(y, width) + x]
    ensures y == n ==> (rows + row)[Mul(y, width) + x] == row[x]
  {
    if y < n {
      MulMono(y + 1, n, width);
    }
  }

  lemma {:induction false} RowsOk(cell: Grid, width: nat, height: nat)
    ensures RenderRows(cell, width, height).Ok? <==>
              forall x, y :: 0 <= x < width && 0 <= y < height ==> cell(x, y).Ok?
    decreases height
  {
    if height > 0 {
      RowsOk(cell, width, height - 1);
      RowShape(cell, height - 1, width);
    }
  }

  lemma {:induction false} RowsLength(cell: Grid, width: nat, height: nat, frame: string)
    requires RenderRows(cell, width, height) == Ok(frame)
    ensures |frame| == Mul(height, width)
    decreases height
  {
    if height > 0 {
      var n := height - 1;
      var prev := RenderRows(cell, width, n);
      var row := RenderRow(cell, n, width);
      assert prev.Ok? && row.Ok? && frame == prev.value + row.value;
      RowsLength(cell, width, n, prev.value);
      RowShape(cell, n, width);
    }
  }

  /** `frame` holds rows `0 .. height - 1` of `cell`, row-major, with the
      offsets counted by `Mul`. */
  ghost predicate Laid(cell: Grid, width: nat, height: nat, frame: string)
  {
    forall x: nat, y: nat :: x < width && y < height ==>
      && cell(x, y).Ok?
      && Mul(y, width) + x < |frame|
      && frame[Mul(y, width) + x] == cell(x, y).value
  }

  /** A produced frame splits into the frame of the rows above the last and
      the last row. */
  lemma RowsSplit(cell: Grid, width: nat, height: nat, frame: string)
    requires height > 0 && RenderRows(cell, width, height) == Ok(frame)
    ensures RenderRows(cell, width, height - 1).Ok? && RenderRow(cell, height - 1, width).Ok?
    ensures frame == RenderRows(cell, width, height - 1).value + RenderRow(cell, height - 1, width).value
  {
  }

  lemma LaidAppend(cell: Grid, width: nat, n: nat, rows: string, row: string)
    requires |rows| == Mul(n, width) && Laid(cell, width, n, rows)
    requires |row| == width && forall x :: 0 <= x < width ==> cell(x, n).Ok? && row[x] == cell(x, n).value
    ensures Laid(cell, width, n + 1, rows + row)
  {
    forall x: nat, y: nat | x < width && y < n + 1
      ensures && cell(x, y).Ok?
              && Mul(y, width) + x < |rows + row|
              && (rows + row)[Mul(y, width) + x] == cell(x, y).value
    {
      AppendRow(rows, row, width, n, x, y);
    }
  }

  lemma {:induction false} RowsCells(cell: Grid, width: nat, height: nat, frame: string)
    requires RenderRows(cell, width, height) == Ok(frame)
    ensures Laid(cell, width, height, frame)
    decreases height
  {
    if height > 0 {
      var n := height - 1;
      RowsSplit(cell, width, height, frame);
      var rows := RenderRows(cell, width, n).value;
      var row := RenderRow(cell, n, width).value;
      RowsCells(cell, width, n, rows);
      RowsLength(cell, width, n, rows);
      RowShape(cell, n, width);
      LaidAppend(cell, width, n, rows, row);
    }
  }

  /** A frame is produced exactly when every visible cell has a glyph. */
  lemma RenderOk(index: Index, store: seq<Entity>, width: nat, height: nat)
    requires IndexValid(index, |store|)
    ensures Render(index, store, width, height).Ok? <==>
              forall x, y :: 0 <= x < width && 0 <= y < height ==> CellGlyph(index, store, x, y).Ok?
  {
    RowsOk(Cells(index, store), width, height);
    CellsApply(index, store);
  }

  /** Frame length: a produced frame holds `width * height` characters. */
  lemma RenderLength(index: Index, store: seq<Entity>, width: nat, height: nat, frame: string)
    requires IndexValid(index, |store|) && Render(index, store, width, height) == Ok(frame)
    ensures |frame| == width * height
  {
    RowsLength(Cells(index, store), width, height, frame);
    MulIs(height, width);
  }

  /** Frame layout: the character at offset `y * width + x` of a produced
      frame is the glyph of cell `(x, y)` (row-major order). */
  lemma RenderCell(index: Index, store: seq<Entity>, width: nat, height: nat, frame: string, x: int, y: int)
    requires IndexValid(index, |store|) && Render(index, store, width, height) == Ok(frame)
    requires 0 <= x < width && 0 <= y < height
    ensures CellGlyph(index, store, x, y).Ok?
    ensures y * width + x < |frame| && frame[y * width + x] == CellGlyph(index, store, x, y).value
  {
    RowsCells(Cells(index, store), width, height, frame);
    assert Cells(index, store)(x, y) == CellGlyph(index, store, x, y);
    MulIs(y, width);
  }
}

=== FILE: reaction_facts.dfy ===
/** What a Flame's reaction loop adds to and takes from the collection, in
    totals: the flames of every Bomb and TNT it reaches, in listing order, and
    one entry per listing of each Wall. */
module ReactionFacts {
  import opened Wrappers
  import opened Entities
  import opened Collection
  import opened SpatialIndex
  import opened Ticks

  // ---------------------------------------------------------------- reference definitions

  /** How many entries of `ids` hold a value equal to `v`. Unlike
      `StepFacts.OldCount`, which counts only ids that existed before the step
      and so ignores the flames a step appends, this counts every entry. */
  function Count(ids: seq<Id>, store: seq<Entity>, v: Entity): (n: nat)
    requires ValidIds(ids, |store|)
    ensures n <= |ids|
    ensures n == 0 <==> forall k :: 0 <= k < |ids| ==> store[ids[k]] != v
    decreases |ids|
  {
    if |ids| == 0 then 0
    else
      assert forall k :: 0 < k < |ids| ==> ids[k] == ids[1..][k - 1];
      (if store[ids[0]] == v then 1 else 0) + Count(ids[1..], store, v)
  }

  /** The flames one entity adds when a Flame reaches it. */
  function FlamesOf(e: Entity): (flames: seq<Entity>)
    ensures |flames| > 0 <==> e.Bomb? || e.TNT?
    ensures forall k :: 0 <= k < |flames| ==> flames[k].Flame?
  {
    if e.Bomb? || e.TNT? then BlastFlames(e) else []
  }

  /** The flames the Bombs and TNT among `ids` add, in listing order. */
  function Blasts(ids: seq<Id>, store: seq<Entity>): (flames: seq<Entity>)
    requires ValidIds(ids, |store|)
    ensures forall k :: 0 <= k < |flames| ==> flames[k].Flame?
    decreases |ids|
  {
    if |ids| == 0 then [] else FlamesOf(store[ids[0]]) + Blasts(ids[1..], store)
  }

  /** `s'` extends `s`, and an entry of `s` differs in `s'` only when both
      are Players. */
  ghost predicate OnlyPlayersChange(s: seq<Entity>, s': seq<Entity>) {
    && |s| <= |s'|
    && forall j :: 0 <= j < |s| ==> s'[j] == s[j] || (s[j].Player? && s'[j].Player?)
  }

  // ---------------------------------------------------------------- counting

  lemma {:induction false} CountAppend(a: seq<Id>, b: seq<Id>, store: seq<Entity>, v: Entity)
    requires ValidIds(a, |store|) && ValidIds(b, |store|)
    ensures ValidIds(a + b, |store|)
    ensures Count(a + b, store, v) == Count(a, store, v) + Count(b, store, v)
    decreases |a|
  {
    assert forall i :: 0 <= i < |a| ==> (a + b)[i] == a[i];
    assert forall i :: 0 <= i < |b| ==> (a + b)[|a| + i] == b[i];
    if |a| == 0 {
      assert a + b == b;
    } else {
      assert (a + b)[1..] == a[1..] + b;
      CountAppend(a[1..], b, store, v);
    }
  }

  /** Deleting one entry lowers the count of its own value by one and leaves
      every other count alone. */
  lemma CountDelete(s: seq<Id>, i: nat, store: seq<Entity>, v: Entity)
    requires ValidIds(s, |store|) && i < |s|
    ensures ValidIds(Delete(s, i), |store|)
    ensures Count(Delete(s, i), store, v) + (if store[s[i]] == v then 1 else 0) == Count(s, store, v)
  {
    var pre, post := s[..i], s[i + 1..];
    assert s == pre + ([s[i]] + post);
    CountAppend([s[i]], post, store, v);
    CountAppend(pre, [s[i]] + post, store, v);
    CountAppend(pre, post, store, v);
  }

  /** Changes that never make an entry equal to `v` or stop it being equal
      leave the count of `v` alone. */
  lemma {:induction false} CountSame(ids: seq<Id>, s0: seq<Entity>, s: seq<Entity>, v: Entity)
    requires ValidIds(ids, |s0|) && |s0| <= |s|
    requires forall j :: 0 <= j < |s0| ==> (s[j] == v <==> s0[j] == v)
    ensures ValidIds(ids, |s|)
    ensures Count(ids, s, v) == Count(ids, s0, v)
    decreases |ids|
  {
    if |ids| > 0 {
      CountSame(ids[1..], s0, s, v);
    }
  }

  /** A change confined to Players leaves every blast alone. */
  lemma {:induction false} BlastsStable(ids: seq<Id>, s: seq<Entity>, s': seq<Entity>)
    requires ValidIds(ids, |s|) && OnlyPlayersChange(s, s')
    ensures ValidIds(ids, |s'|)
    ensures Blasts(ids, s') == Blasts(ids, s)
    decreases |ids|
  {
    if |ids| > 0 {
      assert s'[ids[0]] == s[ids[0]] || s[ids[0]].Player?;
      BlastsStable(ids[1..], s, s');
    }
  }

  /** Freshly appended flames add nothing to the count of a non-Flame value. */
  lemma FreshFlamesCount(store: seq<Entity>, flames: seq<Entity>, v: Entity)
    requires forall k :: 0 <= k < |flames| ==> flames[k].Flame?
    requires !v.Flame?
    ensures ValidIds(Fresh(|store|, |flames|), |store + flames|)
    ensures Count(Fresh(|store|, |flames|), store + flames, v) == 0
  {
    var ids := Fresh(|store|, |flames|);
    forall k | 0 <= k < |ids|
      ensures (store + flames)[ids[k]] != v
    {
      assert (store + flames)[ids[k]] == flames[k];
    }
  }

  // ---------------------------------------------------------------- one reaction

  /** One reaction appends exactly the flames of the entity it reaches and
      changes no stored entity except a Player. */
  lemma ScorchAppends(id: Id, w: Work)
    requires Valid(w) && id < |w.store|
    ensures Scorch(id, w).Ok? ==>
              var r := Scorch(id, w).value;
              && |r.store| == |w.store| + |FlamesOf(w.store[id])|
              && r.store[|w.store|..] == FlamesOf(w.store[id])
              && OnlyPlayersChange(w.store, r.store)
  {
  }

  /** One reaction removes one entry of the Wall it reaches and no entry of
      any other Wall value. */
  lemma ScorchCountsWall(id: Id, w: Work, v: Entity)
    requires Valid(w) && id < |w.store| && v.Wall?
    ensures Scorch(id, w).Ok? ==>
              var r := Scorch(id, w).value;
              Count(r.objs, r.store, v) + (if w.store[id] == v then 1 else 0) == Count(w.objs, w.store, v)
  {
    var e := w.store[id];
    var r := Scorch(id, w);
    if r.Ok? {
      match e
      case Wall(_, _, _) =>
        var i := FirstIndex(w.objs, w.store, e).value;
        CountDelete(w.objs, i, w.store, v);
      case Flame(_, _, _) =>
      case Player(_, _, _, _) =>
        CountSame(w.objs, w.store, r.value.store, v);
      case _ =>
        var base := if Holds(w, e) then Remove(w, e).value.objs else w.objs;
        var flames := BlastFlames(e);
        if Holds(w, e) {
          CountDelete(w.objs, FirstIndex(w.objs, w.store, e).value, w.store, v);
        }
        CountSame(base, w.store, w.store + flames, v);
        FreshFlamesCount(w.store, flames, v);
        CountAppend(base, Fresh(|w.store|, |flames|), w.store + flames, v);
    }
  }

  // ---------------------------------------------------------------- the reaction loop

  /** A completed reaction loop has appended the flames of every Bomb and TNT
      it reached, in listing order, and changed no stored entity but Players. */
  lemma {:induction false} ScorchAllAppends(ids: seq<Id>, w: Work)
    requires Valid(w) && ValidIds(ids, |w.store|)
    ensures ScorchAll(ids, w).Ok? ==>
              var r := ScorchAll(ids, w).value;
              && |r.store| == |w.store| + |Blasts(ids, w.store)|
              && r.store[|w.store|..] == Blasts(ids, w.store)
              && OnlyPlayersChange(w.store, r.store)
    decreases |ids|
  {
    if |ids| > 0 && ScorchAll(ids, w).Ok? {
      var w1 := Scorch(ids[0], w).value;
      var r := ScorchAll(ids[1..], w1).value;
      assert ScorchAll(ids, w).value == r;
      var f0 := FlamesOf(w.store[ids[0]]);
      ScorchAppends(ids[0], w);
      ScorchAllAppends(ids[1..], w1);
      BlastsStable(ids[1..], w.store, w1.store);
      assert Blasts(ids, w.store) == f0 + Blasts(ids[1..], w.store);
      AppendsCompose(w.store, w1.store, r.store, f0, Blasts(ids[1..], w.store));
    }
  }

  /** Two extensions in a row: appending `f0` and then `rest`, where only
      Players change in between, appends `f0 + rest`. */
  lemma AppendsCompose(s: seq<Entity>, s1: seq<Entity>, s2: seq<Entity>, f0: seq<Entity>, rest: seq<Entity>)
    requires |s1| == |s| + |f0| && s1[|s|..] == f0 && OnlyPlayersChange(s, s1)
    requires |s2| == |s1| + |rest| && s2[|s1|..] == rest && OnlyPlayersChange(s1, s2)
    requires forall k :: 0 <= k < |f0| ==> f0[k].Flame?
    ensures |s2| == |s| + |f0 + rest| && s2[|s|..] == f0 + rest
    ensures OnlyPlayersChange(s, s2)
  {
    forall j | |s| <= j < |s2|
      ensures s2[j] == (f0 + rest)[j - |s|]
    {
      if j < |s1| {
        assert s1[j] == f0[j - |s|];
      } else {
        assert s2[j] == s2[|s1|..][j - |s1|];
      }
    }
  }

  /** A completed reaction loop has removed, for every Wall value, one entry
      per listing of that value, and no entry of any other Wall value. */
  lemma {:induction false} ScorchAllCountsWalls(ids: seq<Id>, w: Work, v: Entity)
    requires Valid(w) && ValidIds(ids, |w.store|) && v.Wall?
    ensures ScorchAll(ids, w).Ok? ==>
              var r := ScorchAll(ids, w).value;
              Count(r.objs, r.store, v) + Count(ids, w.store, v) == Count(w.objs, w.store, v)
    decreases |ids|
  {
    if |ids| > 0 && ScorchAll(ids, w).Ok? {
      var w1 := Scorch(ids[0], w).value;
      assert ScorchAll(ids, w) == ScorchAll(ids[1..], w1);
      ScorchCountsWall(ids[0], w, v);
      ScorchAppends(ids[0], w);
      ScorchAllCountsWalls(ids[1..], w1, v);
      CountSame(ids[1..], w.store, w1.store, v);
    }
  }

  // ---------------------------------------------------------------- a Flame's tick

  /** A Flame that completes its tick was listed, removed its own first
      equal entry, and then reacted with everything the previous index lists
      at its cell: it appended the flames of each Bomb and TNT there, in
      listing order, and removed one entry of a Wall value per listing. */
  lemma FlameTickEffect(id: Id, w: Work, index: Index, v: Entity)
    requires Ready(id, w, index) && w.store[id].Flame? && v.Wall?
    ensures var f := w.store[id];
            var listed := if f.Cell() in index then index[f.Cell()] else [];
            var r := FlameTick(id, w, index);
            r.Ok? ==>
              && Holds(w, f)
              && r == ScorchAll(listed, Remove(w, f).value)
              && |r.value.store| == |w.store| + |Blasts(listed, w.store)|
              && r.value.store[|w.store|..] == Blasts(listed, w.store)
              && Count(r.value.objs, r.value.store, v) + Count(listed, w.store, v) == Count(w.objs, w.store, v)
  {
    var f := w.store[id];
    var listed := if f.Cell() in index then index[f.Cell()] else [];
    if FlameTick(id, w, index).Ok? {
      var w1 := Remove(w, f).value;
      CountDelete(w.objs, FirstIndex(w.objs, w.store, f).value, w.store, v);
      ScorchAllAppends(listed, w1);
      ScorchAllCountsWalls(listed, w1, v);
    }
  }
}

=== FILE: rogue.dfy ===
/** One game step, `Rogue.loop`, and the length check of `Game._render`. */
module Rogue {
  import opened Wrappers
  import opened Entities
  import opened Collection
  import opened SpatialIndex
  import opened Ticks
  import opened Frame

  /** The game between two key presses: the window size, the collection
      (`self.objects`), the store behind it and the index of the last step
      (`self.query`). */
  datatype Game = Game(width: nat, height: nat, objects: seq<Id>, store: seq<Entity>, index: Index)

  predicate WellFormed(g: Game) {
    ValidIds(g.objects, |g.store|) && IndexValid(g.index, |g.store|)
  }

  /** A fresh game: the given entities in order, each under its own id, and
      an empty index (the class attribute `query = {}`). */
  function Init(width: nat, height: nat, entities: seq<Entity>): (g: Game)
    ensures WellFormed(g)
    ensures g.width == width && g.height == height
    ensures |g.objects| == |entities| && g.index == map[]
    ensures forall i :: 0 <= i < |entities| ==> g.store[g.objects[i]] == entities[i]
    ensures forall i, j :: 0 <= i < j < |g.objects| ==> g.objects[i] != g.objects[j]
    ensures |g.store| == |entities|
  {
    Game(width, height, Fresh(0, |entities|), entities, map[])
  }

  /** The class-level starting collection: the player at (5, 5) and an
      L-shaped wall from (10, 10) up to (10, 4) and left to (4, 4). */
  const DefaultObjects: seq<Entity> := [
    Player(5, 5, TopZ, false),
    Wall(10, 10, WallZ), Wall(10, 9, WallZ), Wall(10, 8, WallZ), Wall(10, 7, WallZ),
    Wall(10, 6, WallZ), Wall(10, 5, WallZ), Wall(10, 4, WallZ),
    Wall(9, 4, WallZ), Wall(8, 4, WallZ), Wall(7, 4, WallZ), Wall(6, 4, WallZ),
    Wall(5, 4, WallZ), Wall(4, 4, WallZ)
  ]

  /** The game as constructed with the shell's default 80 x 24 window. */
  function Start(): (g: Game)
    ensures WellFormed(g) && g.width == 80 && g.height == 24 && g.index == map[]
    ensures |g.objects| == 14 && g.store[g.objects[0]] == Player(5, 5, TopZ, false)
    ensures forall k :: 1 <= k <= 7 ==> g.store[g.objects[k]] == Wall(10, 11 - k, WallZ)
    ensures forall k :: 8 <= k < 14 ==> g.store[g.objects[k]] == Wall(17 - k, 4, WallZ)
  {
    Init(80, 24, DefaultObjects)
  }

  /** The tick loop: tick each of `ids` in order against the shared working
      collection and the fixed previous index. The first exception ends the
      step. */
  function TickAll(ids: seq<Id>, w: Work, key: string, index: Index): (r: Result<Work>)
    requires Valid(w) && ValidIds(ids, |w.store|) && IndexValid(index, |w.store|)
    ensures r.Ok? ==> Valid(r.value) && |r.value.store| >= |w.store|
    decreases |ids|
  {
    if |ids| == 0 then Ok(w)
    else
      var w1 :- Tick(ids[0], w, key, index);
      TickAll(ids[1..], w1, key, index)
  }

  /** Ticking `a + b` ticks all of `a` first, then all of `b` against the
      same index, and stops at the first exception. */
  lemma {:induction false} TickAllSplit(a: seq<Id>, b: seq<Id>, w: Work, key: string, index: Index)
    requires Valid(w) && ValidIds(a + b, |w.store|) && IndexValid(index, |w.store|)
    ensures ValidIds(a, |w.store|) && ValidIds(b, |w.store|)
    ensures TickAll(a + b, w, key, index)
            == match TickAll(a, w, key, index)
               case Err(e) => Err(e)
               case Ok(w1) => TickAll(b, w1, key, index)
    decreases |a|
  {
    assert forall i :: 0 <= i < |a| ==> a[i] == (a + b)[i];
    assert forall i :: 0 <= i < |b| ==> b[i] == (a + b)[|a| + i];
    if |a| == 0 {
      assert a + b == b;
    } else {
      assert (a + b)[1..] == a[1..] + b;
      var r1 := Tick(a[0], w, key, index);
      if r1.Ok? {
        TickAllSplit(a[1..], b, r1.value, key, index);
      }
    }
  }

  /** `Rogue.loop`: copy the collection, tick every entity of the ORIGINAL
      collection against the previous index, rebuild the index from the
      copy, and render the frame. Returns the next game and the frame. */
  function Step(g: Game, key: string): (r: Result<(Game, string)>)
    requires WellFormed(g)
    ensures r.Ok? ==> WellFormed(r.value.0)
    ensures r.Ok? ==> r.value.0.width == g.width && r.value.0.height == g.height
  {
    var w :- TickAll(g.objects, Work(g.objects, g.store), key, g.index);
    var index := BuildIndex(w.objs, w.store);
    var frame :- Render(index, w.store, g.width, g.height);
    Ok((Game(g.width, g.height, w.objs, w.store, index), frame))
  }

  /** `Game._render`: the shell accepts a frame only of length
      `width * height` and raises ValueError otherwise. */
  function Display(width: int, height: int, content: string): (r: Result<string>)
    ensures r.Ok? <==> |content| == width * height
    ensures r.Ok? ==> r.value == content
    ensures r.Err? ==> r.error == ValueError
  {
    if |content| == width * height then Ok(content) else Err(ValueError)
  }

  /** Every frame a step produces passes the shell's length check, and the
      new index groups exactly the new collection by cell. */
  lemma {:induction false} StepFrame(g: Game, key: string, g': Game, frame: string)
    requires WellFormed(g) && Step(g, key) == Ok((g', frame))
    ensures Display(g.width, g.height, frame) == Ok(frame)
    ensures forall c :: c in g'.index <==> Occupants(g'.objects, g'.store, c) != []
    ensures forall c :: c in g'.index ==> g'.index[c] == Occupants(g'.objects, g'.store, c)
  {
    StepParts(g, key, g', frame);
    RenderLength(g'.index, g'.store, g.width, g.height, frame);
    BuildIndexGroups(g'.objects, g'.store);
  }

  /** Character `y * width + x` of a step's frame is what the compositor
      draws at cell `(x, y)` of the new index. */
  lemma StepCell(g: Game, key: string, g': Game, frame: string, x: int, y: int)
    requires WellFormed(g) && Step(g, key) == Ok((g', frame))
    requires 0 <= x < g.width && 0 <= y < g.height
    ensures CellGlyph(g'.index, g'.store, x, y).Ok?
    ensures y * g.width + x < |frame| && frame[y * g.width + x] == CellGlyph(g'.index, g'.store, x, y).value
  {
    StepParts(g, key, g', frame);
    RenderCell(g'.index, g'.store, g.width, g.height, frame, x, y);
  }

  /** What a successful step consists of: the new index is rebuilt from the
      new collection and the frame is its rendering. */
  lemma {:induction false} StepParts(g: Game, key: string, g': Game, frame: string)
    requires WellFormed(g) && Step(g, key) == Ok((g', frame))
    ensures g'.width == g.width && g'.height == g.height
    ensures ValidIds(g'.objects, |g'.store|)
    ensures g'.index == BuildIndex(g'.objects, g'.store)
    ensures Render(g'.index, g'.store, g.width, g.height) == Ok(frame)
  {
  }
}

=== FILE: scenarios.dfy ===
/** A concrete game situation worked through the model. */
module Scenarios {
  import opened Wrappers
  import opened Entities
  import opened Collection
  import opened SpatialIndex
  import opened Ticks
  import opened Rogue
  import opened TickFacts

  /** Two Flames and a Wall share cell (0, 0), and the index of the last step
      lists all three there. */
  function TwoFlamesOnWall(): (g: Game)
    ensures WellFormed(g)
  {
    Game(1, 1, [0, 1, 2], [Flame(0, 0, TopZ), Flame(0, 0, TopZ), Wall(0, 0, WallZ)],
         map[(0, 0) := [0, 1, 2]])
  }

  /** When every listed entity sits at `at`, the occupants of `at` are the
      whole collection and every other cell is empty. */
  lemma {:induction false} OccupantsAllAt(objs: seq<Id>, store: seq<Entity>, at: Pos, c: Pos)
    requires ValidIds(objs, |store|)
    requires forall k :: 0 <= k < |objs| ==> store[objs[k]].Cell() == at
    ensures Occupants(objs, store, c) == if c == at then objs else []
    decreases |objs|
  {
    if |objs| > 0 {
      OccupantsAllAt(objs[1..], store, at, c);
    }
  }

  lemma TwoFlamesOnWallOccupants(c: Pos)
    ensures Occupants(TwoFlamesOnWall().objects, TwoFlamesOnWall().store, c)
            == (if c == (0, 0) then [0, 1, 2] else [])
  {
    var g := TwoFlamesOnWall();
    OccupantsAllAt(g.objects, g.store, (0, 0), c);
  }

  /** The index of this situation is the one the previous step would have
      built from its collection. */
  lemma TwoFlamesOnWallIndexed()
    ensures TwoFlamesOnWall().index == BuildIndex(TwoFlamesOnWall().objects, TwoFlamesOnWall().store)
  {
    var g := TwoFlamesOnWall();
    forall c: Pos
      ensures c in g.index <==> Occupants(g.objects, g.store, c) != []
      ensures c in g.index ==> g.index[c] == Occupants(g.objects, g.store, c)
    {
      TwoFlamesOnWallOccupants(c);
    }
    BuildIndexUnique(g.objects, g.store, g.index);
  }

  /** The first Flame's `objs.remove(self)` drops the entry at position 0. */
  lemma FirstFlameLeaves()
    ensures var st := TwoFlamesOnWall().store;
            Remove(Work([0, 1, 2], st), st[0]) == Ok(Work([1, 2], st))
  {
    var st := TwoFlamesOnWall().store;
    assert FirstIndex([0, 1, 2], st, st[0]) == Some(0);
    assert Delete([0, 1, 2], 0) == [1, 2];
  }

  /** Reacting with the three entities listed at (0, 0) leaves the Flames
      alone and removes the Wall. */
  lemma FirstFlameBurnsWall()
    ensures var st := TwoFlamesOnWall().store;
            ScorchAll([0, 1, 2], Work([1, 2], st)) == Ok(Work([1], st))
  {
    var st := TwoFlamesOnWall().store;
    var w := Work([1, 2], st);
    assert FirstIndex([2], st, st[2]) == Some(0);
    assert FirstIndex([1, 2], st, st[2]) == Some(1);
    assert Delete([1, 2], 1) == [1];
    assert Scorch(2, w) == Ok(Work([1], st));
    assert [0, 1, 2][1..] == [1, 2] && [1, 2][1..] == [2] && [2][1..] == [];
    assert ScorchAll([2], w) == Ok(Work([1], st));
  }

  /** The first Flame removes itself and then the Wall, leaving only the
      second Flame listed. */
  lemma FirstFlameClears(key: string)
    ensures var g := TwoFlamesOnWall();
            Tick(0, Work(g.objects, g.store), key, g.index) == Ok(Work([1], g.store))
  {
    FirstFlameLeaves();
    FirstFlameBurnsWall();
  }

  /** The first Flame removes the Wall; the second finds it gone and its
      `objs.remove` raises ValueError, so the whole step raises. */
  lemma SecondFlameOnWallRaises(key: string)
    ensures Step(TwoFlamesOnWall(), key) == Err(ValueError)
  {
    var g := TwoFlamesOnWall();
    var w1 := Work([1], g.store);
    FirstFlameClears(key);
    FlameOnVanishedWall(1, w1, g.index, 2);
    assert Tick(1, w1, key, g.index) == Err(ValueError);
    assert TickAll([0, 1, 2], Work(g.objects, g.store), key, g.index) == Err(ValueError);
  }
}

=== FILE: spatial_index.dfy ===
/** The coordinate index (`Rogue.query`): a map from a cell to the ids
    found there, rebuilt from scratch after every step. */
module SpatialIndex {
  import opened Entities
  import opened Collection

  type Index = map<Pos, seq<Id>>

  /** Every id listed anywhere in `index` names an entity of a store of size `n`. */
  predicate IndexValid(index: Index, n: nat) {
    forall c, i :: c in index && 0 <= i < |index[c]| ==> index[c][i] < n
  }

  /** Reference grouping: the ids of `objs` whose entity is at cell `c`,
      in collection order. */
  function Occupants(objs: seq<Id>, store: seq<Entity>, c: Pos): (r: seq<Id>)
    requires ValidIds(objs, |store|)
    ensures ValidIds(r, |store|)
    ensures forall k :: 0 <= k < |r| ==> store[r[k]].Cell() == c
    ensures forall i :: 0 <= i < |objs| && store[objs[i]].Cell() == c ==> objs[i] in r
    ensures forall k :: 0 <= k < |r| ==> r[k] in objs
  {
    if |objs| == 0 then []
    else (if store[objs[0]].Cell() == c then [objs[0]] else []) + Occupants(objs[1..], store, c)
  }

  /** The rebuild loop of `Rogue.loop`: walk the collection in order and
      append each id to the list of its cell, creating the list on first use. */
  function BuildIndex(objs: seq<Id>, store: seq<Entity>): (r: Index)
    requires ValidIds(objs, |store|)
    ensures IndexValid(r, |store|)
    decreases |objs|
  {
    if |objs| == 0 then map[]
    else
      var m := BuildIndex(objs[..|objs| - 1], store);
      var id := objs[|objs| - 1];
      var c := store[id].Cell();
      m[c := (if c in m then m[c] else []) + [id]]
  }

  lemma {:induction false} OccupantsSnoc(objs: seq<Id>, id: Id, store: seq<Entity>, c: Pos)
    requires ValidIds(objs, |store|) && id < |store|
    ensures ValidIds(objs + [id], |store|)
    ensures Occupants(objs + [id], store, c)
            == Occupants(objs, store, c) + (if store[id].Cell() == c then [id] else [])
    decreases |objs|
  {
    if |objs| == 0 {
      assert (objs + [id])[1..] == [];
    } else {
      assert (objs + [id])[1..] == objs[1..] + [id];
      OccupantsSnoc(objs[1..], id, store, c);
    }
  }

  /** The rebuilt index lists exactly the occupied cells, and each cell's
      list is exactly the collection filtered to that cell, in order. */
  lemma {:induction false} BuildIndexGroups(objs: seq<Id>, store: seq<Entity>)
    requires ValidIds(objs, |store|)
    ensures forall c :: c in BuildIndex(objs, store) <==> Occupants(objs, store, c) != []
    ensures forall c :: c in BuildIndex(objs, store) ==>
              BuildIndex(objs, store)[c] == Occupants(objs, store, c)
    decreases |objs|
  {
    if |objs| > 0 {
      var init := objs[..|objs| - 1];
      var id := objs[|objs| - 1];
      assert objs == init + [id];
      BuildIndexGroups(init, store);
      forall c
        ensures c in BuildIndex(objs, store) <==> Occupants(objs, store, c) != []
        ensures c in BuildIndex(objs, store) ==>
                  BuildIndex(objs, store)[c] == Occupants(objs, store, c)
      {
        OccupantsSnoc(init, id, store, c);
      }
    }
  }

  /** Corollary in terms of membership: an id is listed at cell `c` exactly
      when it is in the collection and its entity is at `c`. */
  lemma BuildIndexMembership(objs: seq<Id>, store: seq<Entity>, c: Pos, id: Id)
    requires ValidIds(objs, |store|)
    ensures (c in BuildIndex(objs, store) && id in BuildIndex(objs, store)[c])
            <==> (id in objs && store[id].Cell() == c)
  {
    BuildIndexGroups(objs, store);
    if id in objs && store[id].Cell() == c {
      var i :| 0 <= i < |objs| && objs[i] == id;
      assert id in Occupants(objs, store, c);
    }
  }

  /** Conversely, an index that lists exactly the occupants of every cell,
      in collection order, is the one the rebuild loop produces. */
  lemma BuildIndexUnique(objs: seq<Id>, store: seq<Entity>, index: Index)
    requires ValidIds(objs, |store|)
    requires forall c :: c in index <==> Occupants(objs, store, c) != []
    requires forall c :: c in index ==> index[c] == Occupants(objs, store, c)
    ensures index == BuildIndex(objs, store)
  {
    BuildIndexGroups(objs, store);
  }
}

=== FILE: step_facts.dfy ===
/** Properties of a whole step, proved from an invariant every tick rule
    preserves.

    Notation: `store0` is the store before the step and `n0 = |store0|`;
    ids below `n0` are OLD (they existed before the step), ids from `n0` on
    were created during it. */
module StepFacts {
  import opened Wrappers
  import opened Entities
  import opened Collection
  import opened SpatialIndex
  import opened Ticks
  import opened Rogue

  // ---------------------------------------------------------------- counting

  /** Number of positions of `objs` holding an old id (below `n`) whose
      entity equals `f`. Only old ids count, because a Flame created during
      the step may equal an old Flame and must not hide its removal. */
  function OldCount(objs: seq<Id>, store: seq<Entity>, n: nat, f: Entity): nat
    requires n <= |store|
  {
    if |objs| == 0 then 0
    else (if objs[0] < n && store[objs[0]] == f then 1 else 0) + OldCount(objs[1..], store, n, f)
  }

  lemma {:induction false} OldCountConcat(a: seq<Id>, b: seq<Id>, store: seq<Entity>, n: nat, f: Entity)
    requires n <= |store|
    ensures OldCount(a + b, store, n, f) == OldCount(a, store, n, f) + OldCount(b, store, n, f)
    decreases |a|
  {
    if |a| == 0 {
      assert a + b == b;
    } else {
      assert (a + b)[1..] == a[1..] + b;
      OldCountConcat(a[1..], b, store, n, f);
    }
  }

  /** Deleting position `i` lowers the count by one exactly when that
      position was counted. */
  lemma OldCountDelete(objs: seq<Id>, i: nat, store: seq<Entity>, n: nat, f: Entity)
    requires n <= |store| && i < |objs|
    ensures OldCount(Delete(objs, i), store, n, f)
            + (if objs[i] < n && store[objs[i]] == f then 1 else 0)
            == OldCount(objs, store, n, f)
  {
    assert objs == objs[..i] + [objs[i]] + objs[i + 1..];
    OldCountConcat(objs[..i] + [objs[i]], objs[i + 1..], store, n, f);
    OldCountConcat(objs[..i], [objs[i]], store, n, f);
    OldCountConcat(objs[..i], objs[i + 1..], store, n, f);
  }

  /** The count only looks at old entries equal to `f`. */
  lemma {:induction false} OldCountFrame(objs: seq<Id>, s1: seq<Entity>, s2: seq<Entity>, n: nat, f: Entity)
    requires n <= |s1| && n <= |s2|
    requires forall id :: 0 <= id < n ==> (s1[id] == f <==> s2[id] == f)
    ensures OldCount(objs, s1, n, f) == OldCount(objs, s2, n, f)
    decreases |objs|
  {
    if |objs| > 0 {
      OldCountFrame(objs[1..], s1, s2, n, f);
    }
  }

  lemma {:induction false} OldCountWitness(objs: seq<Id>, store: seq<Entity>, n: nat, f: Entity)
    requires n <= |store| && OldCount(objs, store, n, f) > 0
    ensures exists i :: 0 <= i < |objs| && objs[i] < n && store[objs[i]] == f
    decreases |objs|
  {
    if !(objs[0] < n && store[objs[0]] == f) {
      OldCountWitness(objs[1..], store, n, f);
      var i :| 0 <= i < |objs[1..]| && objs[1..][i] < n && store[objs[1..][i]] == f;
      assert objs[i + 1] == objs[1..][i];
    }
  }

  // ---------------------------------------------------------------- invariant

  /** How the entity behind an old id may change within a step: Walls, Flames
      and TNT never change, a Bomb keeps its cell and z, a Player keeps its z
      and, once dead, never changes again. This is the per-entity frame of a
      whole step; the store-level frames `ReactionFacts.OnlyPlayersChange` and
      `WallFacts.Drift` are the shapes the counting lemmas there need. */
  predicate Evolved(e0: Entity, e: Entity) {
    match e0
    case Wall(_, _, _) => e == e0
    case Flame(_, _, _) => e == e0
    case TNT(_, _, _) => e == e0
    case Bomb(x, y, z, _) => e.Bomb? && e.x == x && e.y == y && e.z == z
    case Player(_, _, z, dead) => e.Player? && e.z == z && (dead ==> e == e0)
  }

  lemma EvolvedTrans(a: Entity, b: Entity, c: Entity)
    requires Evolved(a, b) && Evolved(b, c)
    ensures Evolved(a, c)
  {
  }

  /** The value an entity has when a tick rule creates it. */
  predicate AsSpawned(e: Entity) {
    e.z == TopZ && (e.Flame? || e.TNT? || (e.Bomb? && e.secs == BombFuse))
  }

  /** In `objs`, no old id follows an id created during the step. */
  predicate OldFirst(objs: seq<Id>, n: nat) {
    forall i, j :: 0 <= i < j < |objs| && objs[i] >= n ==> objs[j] >= n
  }

  ghost predicate Inv(store0: seq<Entity>, w: Work) {
    && |store0| <= |w.store|
    && Valid(w)
    && (forall id :: 0 <= id < |store0| ==> Evolved(store0[id], w.store[id]))
    && (forall id :: |store0| <= id < |w.store| ==> AsSpawned(w.store[id]))
    && OldFirst(w.objs, |store0|)
    && NewFlamesListed(w, |store0|)
  }

  /** Every Flame created during the step is still listed: nothing ticks
      it, so nothing removes it. */
  ghost predicate NewFlamesListed(w: Work, n: nat) {
    forall id :: n <= id < |w.store| && w.store[id].Flame? ==> id in w.objs
  }

  /** `w'` is reachable from `w` without removing an old Flame. */
  ghost predicate Keeps(store0: seq<Entity>, w: Work, w': Work) {
    && Inv(store0, w')
    && |w.store| <= |w'.store|
    && |store0| <= |w.store|
    && forall f: Entity :: f.Flame? ==>
         OldCount(w'.objs, w'.store, |store0|, f) == OldCount(w.objs, w.store, |store0|, f)
  }

  // ---------------------------------------------------------------- primitives

  lemma OldFirstDelete(objs: seq<Id>, i: nat, n: nat)
    requires i < |objs| && OldFirst(objs, n)
    ensures OldFirst(Delete(objs, i), n)
  {
    var d := Delete(objs, i);
    forall a, b | 0 <= a < b < |d| && d[a] >= n
      ensures d[b] >= n
    {
      var a' := if a < i then a else a + 1;
      var b' := if b < i then b else b + 1;
      assert d[a] == objs[a'] && d[b] == objs[b'];
    }
  }

  /** Deleting a position that holds a different id keeps `id` listed. */
  lemma DeleteKeepsListed(objs: seq<Id>, i: nat, id: Id)
    requires i < |objs| && id in objs && objs[i] != id
    ensures id in Delete(objs, i)
  {
    var p :| 0 <= p < |objs| && objs[p] == id;
    if p < i {
      assert Delete(objs, i)[p] == id;
    } else {
      assert Delete(objs, i)[p - 1] == id;
    }
  }

  /** Deleting an old id, or an entry whose value is not a Flame, keeps every
      new Flame listed. */
  lemma DeleteKeepsNewFlames(w: Work, i: nat, n: nat)
    requires Valid(w) && i < |w.objs| && NewFlamesListed(w, n)
    requires w.objs[i] < n || !w.store[w.objs[i]].Flame?
    ensures NewFlamesListed(Work(Delete(w.objs, i), w.store), n)
  {
    forall id | n <= id < |w.store| && w.store[id].Flame?
      ensures id in Delete(w.objs, i)
    {
      DeleteKeepsListed(w.objs, i, id);
    }
  }

  lemma SpawnKeeps(store0: seq<Entity>, w: Work, e: Entity)
    requires Inv(store0, w) && AsSpawned(e)
    ensures Keeps(store0, w, Spawn(w, e))
  {
    var w' := Spawn(w, e);
    forall f: Entity | f.Flame?
      ensures OldCount(w'.objs, w'.store, |store0|, f) == OldCount(w.objs, w.store, |store0|, f)
    {
      OldCountConcat(w.objs, [|w.store|], w'.store, |store0|, f);
      OldCountFrame(w.objs, w'.store, w.store, |store0|, f);
    }
  }

  lemma {:induction false} SpawnAllKeeps(store0: seq<Entity>, w: Work, es: seq<Entity>)
    requires Inv(store0, w)
    requires forall k :: 0 <= k < |es| ==> AsSpawned(es[k])
    ensures Keeps(store0, w, SpawnAll(w, es))
    decreases |es|
  {
    if |es| > 0 {
      SpawnKeeps(store0, w, es[0]);
      SpawnAllKeeps(store0, Spawn(w, es[0]), es[1..]);
    }
  }

  lemma RemoveKeeps(store0: seq<Entity>, w: Work, e: Entity)
    requires Inv(store0, w) && !e.Flame? && Remove(w, e).Ok?
    ensures Keeps(store0, w, Remove(w, e).value)
  {
    var w' := Remove(w, e).value;
    var i :| && 0 <= i < |w.objs| && w.store[w.objs[i]] == e
             && (forall j :: 0 <= j < i ==> w.store[w.objs[j]] != e)
             && w'.objs == Delete(w.objs, i);
    OldFirstDelete(w.objs, i, |store0|);
    DeleteKeepsNewFlames(w, i, |store0|);
    forall f: Entity | f.Flame?
      ensures OldCount(w'.objs, w'.store, |store0|, f) == OldCount(w.objs, w.store, |store0|, f)
    {
      OldCountDelete(w.objs, i, w.store, |store0|, f);
    }
  }

  lemma RemoveIfPresentKeeps(store0: seq<Entity>, w: Work, e: Entity)
    requires Inv(store0, w) && !e.Flame?
    ensures Keeps(store0, w, RemoveIfPresent(w, e))
  {
    if Holds(w, e) {
      RemoveKeeps(store0, w, e);
    }
  }

  lemma PutKeeps(store0: seq<Entity>, w: Work, id: Id, v: Entity)
    requires Inv(store0, w) && id < |store0|
    requires Evolved(w.store[id], v) && !v.Flame?
    ensures Keeps(store0, w, Put(w, id, v))
  {
    var w' := Put(w, id, v);
    EvolvedTrans(store0[id], w.store[id], v);
    forall f: Entity | f.Flame?
      ensures OldCount(w'.objs, w'.store, |store0|, f) == OldCount(w.objs, w.store, |store0|, f)
    {
      OldCountFrame(w.objs, w'.store, w.store, |store0|, f);
    }
  }

  /** A Flame's own `objs.remove(self)` succeeds whenever an old entry equal
      to it is listed, and it removes one such old entry. */
  lemma FlameSelfRemove(store0: seq<Entity>, w: Work, f: Entity)
    requires Inv(store0, w) && f.Flame?
    requires OldCount(w.objs, w.store, |store0|, f) >= 1
    ensures Remove(w, f).Ok?
    ensures var w' := Remove(w, f).value;
            && Inv(store0, w') && w'.store == w.store
            && OldCount(w'.objs, w'.store, |store0|, f) == OldCount(w.objs, w.store, |store0|, f) - 1
            && forall g: Entity :: g.Flame? && g != f ==>
                 OldCount(w'.objs, w'.store, |store0|, g) == OldCount(w.objs, w.store, |store0|, g)
  {
    OldCountWitness(w.objs, w.store, |store0|, f);
    var k :| 0 <= k < |w.objs| && w.objs[k] < |store0| && w.store[w.objs[k]] == f;
    assert Holds(w, f);
    var w' := Remove(w, f).value;
    var i :| && 0 <= i < |w.objs| && w.store[w.objs[i]] == f
             && (forall j :: 0 <= j < i ==> w.store[w.objs[j]] != f)
             && w'.objs == Delete(w.objs, i);
    assert i <= k;
    assert w.objs[i] < |store0|;
    OldFirstDelete(w.objs, i, |store0|);
    DeleteKeepsNewFlames(w, i, |store0|);
    forall g: Entity | g.Flame?
      ensures OldCount(w'.objs, w'.store, |store0|, g)
              == OldCount(w.objs, w.store, |store0|, g) - (if g == f then 1 else 0)
    {
      OldCountDelete(w.objs, i, w.store, |store0|, g);
    }
  }

  // ---------------------------------------------------------------- tick rules

  lemma DetonateKeeps(store0: seq<Entity>, w: Work, id: Id)
    requires Inv(store0, w) && id < |w.store|
    requires w.store[id].Bomb? || w.store[id].TNT?
    ensures Keeps(store0, w, Detonate(id, w))
  {
    var e := w.store[id];
    var flames := BlastFlames(e);
    SpawnAllKeeps(store0, w, flames);
    RemoveIfPresentKeeps(store0, SpawnAll(w, flames), e);
  }

  lemma ScorchKeeps(store0: seq<Entity>, w: Work, id: Id)
    requires Inv(store0, w) && id < |store0|
    ensures Scorch(id, w).Ok? ==> Keeps(store0, w, Scorch(id, w).value)
  {
    match w.store[id]
    case Wall(_, _, _) =>
      if Scorch(id, w).Ok? {
        RemoveKeeps(store0, w, w.store[id]);
      }
    case Flame(_, _, _) =>
    case Bomb(_, _, _, _) => DetonateKeeps(store0, w, id);
    case TNT(_, _, _) => DetonateKeeps(store0, w, id);
    case Player(x, y, z, _) => PutKeeps(store0, w, id, Player(x, y, z, true));
  }

  lemma {:induction false} ScorchAllKeeps(store0: seq<Entity>, w: Work, ids: seq<Id>)
    requires Inv(store0, w) && ValidIds(ids, |store0|)
    ensures ScorchAll(ids, w).Ok? ==> Keeps(store0, w, ScorchAll(ids, w).value)
    decreases |ids|
  {
    if |ids| > 0 {
      ScorchKeeps(store0, w, ids[0]);
      var r1 := Scorch(ids[0], w);
      if r1.Ok? {
        ScorchAllKeeps(store0, r1.value, ids[1..]);
      }
    }
  }

  lemma FlameTickCounts(store0: seq<Entity>, w: Work, id: Id, index: Index)
    requires Inv(store0, w) && id < |store0| && IndexValid(index, |store0|)
    requires w.store[id].Flame? && OldCount(w.objs, w.store, |store0|, w.store[id]) >= 1
    ensures FlameTick(id, w, index).Ok? ==>
              var w' := FlameTick(id, w, index).value;
              && Inv(store0, w')
              && forall f: Entity :: f.Flame? ==>
                   OldCount(w'.objs, w'.store, |store0|, f)
                   == OldCount(w.objs, w.store, |store0|, f) - (if w.store[id] == f then 1 else 0)
  {
    var e := w.store[id];
    FlameSelfRemove(store0, w, e);
    var w1 := Remove(w, e).value;
    if e.Cell() in index {
      ScorchAllKeeps(store0, w1, index[e.Cell()]);
    }
  }

  lemma BombTickKeeps(store0: seq<Entity>, w: Work, id: Id)
    requires Inv(store0, w) && id < |store0| && w.store[id].Bomb?
    ensures Keeps(store0, w, BombTick(id, w))
  {
    var b := w.store[id];
    if b.secs == 0 {
      DetonateKeeps(store0, w, id);
    } else {
      PutKeeps(store0, w, id, Bomb(b.x, b.y, b.z, b.secs - 1));
    }
  }

  lemma PlayerTickKeeps(store0: seq<Entity>, w: Work, id: Id, key: string, index: Index)
    requires Inv(store0, w) && id < |store0| && IndexValid(index, |store0|) && w.store[id].Player?
    ensures Keeps(store0, w, PlayerTick(id, w, key, index))
  {
    var p := w.store[id];
    if !p.dead {
      var (dx, dy) := Heading(key);
      var w1 := if key == "a" then Spawn(w, Bomb(p.x, p.y, TopZ, BombFuse))
                else if key == "d" then Spawn(w, TNT(p.x, p.y, TopZ))
                else w;
      if key == "a" {
        SpawnKeeps(store0, w, Bomb(p.x, p.y, TopZ, BombFuse));
      } else if key == "d" {
        SpawnKeeps(store0, w, TNT(p.x, p.y, TopZ));
      }
      if !WallAt(index, w1.store, (p.x + dx, p.y + dy)) {
        PutKeeps(store0, w1, id, Player(p.x + dx, p.y + dy, p.z, p.dead));
      }
    }
  }

  /** The effect of ticking the old entity `id` on the Flame counts: only a
      Flame's tick removes a Flame, and it removes one equal to itself. */
  lemma TickCounts(store0: seq<Entity>, w: Work, id: Id, key: string, index: Index)
    requires Inv(store0, w) && id < |store0| && IndexValid(index, |store0|)
    requires w.store[id].Flame? ==> OldCount(w.objs, w.store, |store0|, w.store[id]) >= 1
    ensures Tick(id, w, key, index).Ok? ==>
              var w' := Tick(id, w, key, index).value;
              && Inv(store0, w')
              && forall f: Entity :: f.Flame? ==>
                   OldCount(w'.objs, w'.store, |store0|, f)
                   == OldCount(w.objs, w.store, |store0|, f) - (if w.store[id] == f then 1 else 0)
  {
    var e := w.store[id];
    if e.Flame? {
      FlameTickCounts(store0, w, id, index);
    } else if e.Bomb? {
      BombTickKeeps(store0, w, id);
    } else if e.Player? {
      PlayerTickKeeps(store0, w, id, key, index);
    }
  }

  lemma {:induction false} TickAllCounts(store0: seq<Entity>, ids: seq<Id>, w: Work, key: string, index: Index)
    requires Inv(store0, w) && ValidIds(ids, |store0|) && IndexValid(index, |store0|)
    requires forall f: Entity :: f.Flame? ==>
               OldCount(w.objs, w.store, |store0|, f) == OldCount(ids, store0, |store0|, f)
    ensures TickAll(ids, w, key, index).Ok? ==>
              var w' := TickAll(ids, w, key, index).value;
              && Inv(store0, w')
              && forall f: Entity :: f.Flame? ==> OldCount(w'.objs, w'.store, |store0|, f) == 0
    decreases |ids|
  {
    if |ids| > 0 {
      var id := ids[0];
      var e := w.store[id];
      assert Evolved(store0[id], e);
      if e.Flame? {
        assert OldCount(ids, store0, |store0|, e) >= 1;
      }
      TickCounts(store0, w, id, key, index);
      var r1 := Tick(id, w, key, index);
      if r1.Ok? {
        var w1 := r1.value;
        forall f: Entity | f.Flame?
          ensures OldCount(w1.objs, w1.store, |store0|, f) == OldCount(ids[1..], store0, |store0|, f)
        {
          assert OldCount(ids, store0, |store0|, f)
                 == (if store0[id] == f then 1 else 0) + OldCount(ids[1..], store0, |store0|, f);
        }
        TickAllCounts(store0, ids[1..], w1, key, index);
      }
    }
  }

  // ---------------------------------------------------------------- step facts

  /** Whatever a successful step does, it only changes old entities in the
      ways `Evolved` allows, and every entity it creates still has the value
      it was created with: nothing created during a step is ticked in it. */
  lemma StepInvariant(g: Game, key: string, g': Game, frame: string)
    requires WellFormed(g) && Step(g, key) == Ok((g', frame))
    ensures Inv(g.store, Work(g'.objects, g'.store))
    ensures forall f: Entity :: f.Flame? ==> OldCount(g'.objects, g'.store, |g.store|, f) == 0
  {
    var w0 := Work(g.objects, g.store);
    assert Inv(g.store, w0);
    TickAllCounts(g.store, g.objects, w0, key, g.index);
  }

  /** Every Flame ticked in a step is absent from the resulting collection. */
  lemma StepRemovesFlames(g: Game, key: string, g': Game, frame: string)
    requires WellFormed(g) && Step(g, key) == Ok((g', frame))
    ensures forall id :: id in g.objects && g.store[id].Flame? ==> id !in g'.objects
  {
    StepInvariant(g, key, g', frame);
    forall id | id in g.objects && g.store[id].Flame?
      ensures id !in g'.objects
    {
      var f := g.store[id];
      if id in g'.objects {
        var i :| 0 <= i < |g'.objects| && g'.objects[i] == id;
        OldCountDelete(g'.objects, i, g'.store, |g.store|, f);
      }
    }
  }

  /** Walls never move and are never altered, nor are TNT and Flames; a
      Bomb keeps its cell; a Player keeps its z, `dead` is never reset and a
      dead Player does not change at all. */
  lemma StepEvolves(g: Game, key: string, g': Game, frame: string)
    requires WellFormed(g) && Step(g, key) == Ok((g', frame))
    ensures |g.store| <= |g'.store|
    ensures forall id :: 0 <= id < |g.store| && (g.store[id].Wall? || g.store[id].TNT? || g.store[id].Flame?)
              ==> g'.store[id] == g.store[id]
    ensures forall id :: 0 <= id < |g.store| && g.store[id].Bomb? ==>
              g'.store[id].Bomb? && g'.store[id].Cell() == g.store[id].Cell()
    ensures forall id :: 0 <= id < |g.store| && g.store[id].Player? ==>
              g'.store[id].Player? && g'.store[id].z == g.store[id].z
    ensures forall id :: 0 <= id < |g.store| && g.store[id].Player? && g.store[id].dead ==>
              g'.store[id] == g.store[id]
  {
    StepInvariant(g, key, g', frame);
    forall id | 0 <= id < |g.store|
      ensures Evolved(g.store[id], g'.store[id])
    {
    }
  }

  /** Entities created during a step are not ticked in it: each still has
      its creation value, so a Bomb placed this step still has the full fuse,
      and every Flame created this step is still listed, since only its own
      tick could remove it. */
  lemma StepSpawnsUnticked(g: Game, key: string, g': Game, frame: string)
    requires WellFormed(g) && Step(g, key) == Ok((g', frame))
    ensures forall id :: |g.store| <= id < |g'.store| ==>
              g'.store[id].z == TopZ
              && (g'.store[id].Flame? || g'.store[id].TNT? || (g'.store[id].Bomb? && g'.store[id].secs == BombFuse))
    ensures forall id :: |g.store| <= id < |g'.store| && g'.store[id].Flame? ==> id in g'.objects
  {
    StepInvariant(g, key, g', frame);
  }

  // ---------------------------------------------------------------- idle steps

  /** Only Walls, TNT and Players are listed: nothing has a countdown or burns. */
  predicate Quiet(g: Game)
    requires WellFormed(g)
  {
    forall i :: 0 <= i < |g.objects| ==>
      var e := g.store[g.objects[i]];
      e.Wall? || e.TNT? || e.Player?
  }

  /** A key no entity reacts to. */
  predicate Inactive(key: string) {
    !IsArrow(key) && key != "a" && key != "d"
  }

  lemma {:induction false} TickAllIdle(ids: seq<Id>, w: Work, key: string, index: Index)
    requires Valid(w) && ValidIds(ids, |w.store|) && IndexValid(index, |w.store|) && Inactive(key)
    requires forall k :: 0 <= k < |ids| ==>
               w.store[ids[k]].Wall? || w.store[ids[k]].TNT? || w.store[ids[k]].Player?
    ensures TickAll(ids, w, key, index) == Ok(w)
    decreases |ids|
  {
    if |ids| > 0 {
      var id := ids[0];
      if w.store[id].Player? {
        var r := PlayerTick(id, w, key, index);
        if !w.store[id].dead {
          assert Heading(key) == (0, 0);
          assert r.store == w.store;
        }
      }
      assert Tick(id, w, key, index) == Ok(w);
      TickAllIdle(ids[1..], w, key, index);
    }
  }

  /** In a quiet world a key nothing reacts to changes no entity; the next
      such key reproduces the same game and the same frame. */
  lemma StepIdle(g: Game, key: string, g': Game, frame: string)
    requires WellFormed(g) && Quiet(g) && Inactive(key) && Step(g, key) == Ok((g', frame))
    ensures g' == Game(g.width, g.height, g.objects, g.store, BuildIndex(g.objects, g.store))
    ensures Step(g', key) == Ok((g', frame))
  {
    TickAllIdle(g.objects, Work(g.objects, g.store), key, g.index);
    TickAllIdle(g'.objects, Work(g'.objects, g'.store), key, g'.index);
  }
}

=== FILE: tick_facts.dfy ===
/** Properties of the individual tick rules: the blast shapes, what a Flame
    does to the entities at its cell, and repeated detonation. */
module TickFacts {
  import opened Wrappers
  import opened Entities
  import opened Collection
  import opened SpatialIndex
  import opened Ticks

  // ---------------------------------------------------------------- blast shapes

  /** Some flame of `flames` is at cell `c`. */
  ghost predicate Covers(flames: seq<Entity>, c: Pos) {
    exists k :: 0 <= k < |flames| && flames[k].Cell() == c
  }

  function Abs(a: int): nat {
    if a < 0 then -a else a
  }

  /** A Bomb's blast is five top-priority Flames covering exactly the cells
      at most one orthogonal step away from the bomb. */
  lemma CrossShape(x: int, y: int)
    ensures |CrossFlames(x, y)| == 5
    ensures forall k :: 0 <= k < 5 ==> CrossFlames(x, y)[k].Flame? && CrossFlames(x, y)[k].z == TopZ
    ensures forall c: Pos :: Covers(CrossFlames(x, y), c) <==> Abs(c.0 - x) + Abs(c.1 - y) <= 1
  {
    var fl := CrossFlames(x, y);
    forall c: Pos
      ensures Covers(fl, c) <==> Abs(c.0 - x) + Abs(c.1 - y) <= 1
    {
      if Abs(c.0 - x) + Abs(c.1 - y) <= 1 {
        if c.0 == x + 1 { assert fl[1].Cell() == c; }
        else if c.0 == x - 1 { assert fl[2].Cell() == c; }
        else if c.1 == y + 1 { assert fl[3].Cell() == c; }
        else if c.1 == y - 1 { assert fl[4].Cell() == c; }
        else { assert fl[0].Cell() == c; }
      }
    }
  }

  lemma DivMod6(a: int, b: int)
    requires 0 <= a < 6 && 0 <= b < 6
    ensures (a * 6 + b) / 6 == a && (a * 6 + b) % 6 == b
  {
  }

  /** A TNT blast is 36 top-priority Flames, one on each cell of the block
      `x - 3 .. x + 2` by `y - 3 .. y + 2` (so it reaches three cells left
      and up but only two right and down) and nowhere else. */
  lemma BlockShape(x: int, y: int)
    ensures |BlockFlames(x, y)| == 36
    ensures forall k :: 0 <= k < 36 ==> BlockFlames(x, y)[k].Flame? && BlockFlames(x, y)[k].z == TopZ
    ensures forall c: Pos :: Covers(BlockFlames(x, y), c) <==> x - 3 <= c.0 < x + 3 && y - 3 <= c.1 < y + 3
    ensures forall k, l :: 0 <= k < l < 36 ==> BlockFlames(x, y)[k].Cell() != BlockFlames(x, y)[l].Cell()
  {
    var fl := BlockFlames(x, y);
    forall c: Pos
      ensures Covers(fl, c) <==> x - 3 <= c.0 < x + 3 && y - 3 <= c.1 < y + 3
    {
      if x - 3 <= c.0 < x + 3 && y - 3 <= c.1 < y + 3 {
        var a, b := c.0 - x + 3, c.1 - y + 3;
        DivMod6(a, b);
        assert fl[a * 6 + b].Cell() == c;
      }
    }
    forall k, l | 0 <= k < l < 36
      ensures fl[k].Cell() != fl[l].Cell()
    {
      assert k == (k / 6) * 6 + k % 6 && l == (l / 6) * 6 + l % 6;
    }
  }

  // ---------------------------------------------------------------- repeated detonation

  /** At most one listed entry of `w` equals `e`. */
  predicate AtMostOnce(w: Work, e: Entity)
    requires Valid(w)
  {
    forall i, j :: 0 <= i < j < |w.objs| ==> !(w.store[w.objs[i]] == e && w.store[w.objs[j]] == e)
  }

  /** Appending Flames never makes a non-Flame value listed. */
  lemma AppendFlamesAbsent(base: seq<Id>, store: seq<Entity>, flames: seq<Entity>, v: Entity)
    requires ValidIds(base, |store|) && !Holds(Work(base, store), v) && !v.Flame?
    requires forall k :: 0 <= k < |flames| ==> flames[k].Flame?
    ensures !Holds(Work(base + Fresh(|store|, |flames|), store + flames), v)
  {
    var r := Work(base + Fresh(|store|, |flames|), store + flames);
    forall k | 0 <= k < |r.objs|
      ensures r.store[r.objs[k]] != v
    {
      if k < |base| {
        assert r.objs[k] == base[k];
      } else {
        assert r.objs[k] == |store| + (k - |base|);
      }
    }
  }

  /** Removing the only listed copy of `e` leaves none. */
  lemma RemoveOnly(w: Work, e: Entity)
    requires Valid(w) && Holds(w, e) && AtMostOnce(w, e)
    ensures !Holds(Remove(w, e).value, e)
  {
    var r := Remove(w, e).value;
    var i :| && 0 <= i < |w.objs| && w.store[w.objs[i]] == e
             && (forall j :: 0 <= j < i ==> w.store[w.objs[j]] != e)
             && r.objs == Delete(w.objs, i);
    forall k | 0 <= k < |r.objs|
      ensures r.store[r.objs[k]] != e
    {
      var k' := if k < i then k else k + 1;
      assert r.objs[k] == w.objs[k'] && k' != i;
    }
  }

  /** Detonating the same Bomb or TNT twice (two Flames on its cell, or a
      Flame and its own countdown) appends a second blast but removes
      nothing: the first detonation already removed the only listed copy. */
  lemma RepeatDetonation(id: Id, w: Work)
    requires Valid(w) && id < |w.store| && (w.store[id].Bomb? || w.store[id].TNT?)
    requires AtMostOnce(w, w.store[id])
    ensures var w1 := Detonate(id, w);
            var w2 := Detonate(id, w1);
            && !Holds(w1, w.store[id])
            && w2.store == w1.store + BlastFlames(w.store[id])
            && w2.objs == w1.objs + Fresh(|w1.store|, |BlastFlames(w.store[id])|)
  {
    var e := w.store[id];
    var flames := BlastFlames(e);
    var w1 := Detonate(id, w);
    assert w1.store == w.store + flames;
    var base := if Holds(w, e) then Remove(w, e).value.objs else w.objs;
    assert w1.objs == base + Fresh(|w.store|, |flames|);
    if Holds(w, e) {
      RemoveOnly(w, e);
      assert Remove(w, e).value == Work(base, w.store);
    }
    AppendFlamesAbsent(base, w.store, flames, e);
    assert w1.store[id] == e;
  }

  // ---------------------------------------------------------------- flames

  /** `w'` keeps every entity's kind, every Wall's value and every dead
      Player dead. It is the frame the reaction loop needs for the Player and
      missing-Wall facts here, and it does not require `w'` to extend `w`'s
      store by flames only. */
  ghost predicate Settles(w: Work, w': Work) {
    && |w.store| <= |w'.store|
    && forall id :: 0 <= id < |w.store| ==>
         && SameKind(w.store[id], w'.store[id])
         && (w.store[id].Wall? ==> w'.store[id] == w.store[id])
         && (w.store[id].Player? && w.store[id].dead ==> w'.store[id].Player? && w'.store[id].dead)
  }

  lemma ScorchSettles(id: Id, w: Work)
    requires Valid(w) && id < |w.store|
    ensures Scorch(id, w).Ok? ==> Settles(w, Scorch(id, w).value)
  {
    if w.store[id].Bomb? || w.store[id].TNT? {
      assert Detonate(id, w).store == w.store + BlastFlames(w.store[id]);
    }
  }

  lemma {:induction false} ScorchAllSettles(ids: seq<Id>, w: Work)
    requires Valid(w) && ValidIds(ids, |w.store|)
    ensures ScorchAll(ids, w).Ok? ==> Settles(w, ScorchAll(ids, w).value)
    decreases |ids|
  {
    if |ids| > 0 {
      ScorchSettles(ids[0], w);
      var r1 := Scorch(ids[0], w);
      if r1.Ok? {
        ScorchAllSettles(ids[1..], r1.value);
      }
    }
  }

  lemma {:induction false} ScorchAllKills(ids: seq<Id>, w: Work)
    requires Valid(w) && ValidIds(ids, |w.store|)
    ensures ScorchAll(ids, w).Ok? ==>
              forall k :: 0 <= k < |ids| && w.store[ids[k]].Player? ==>
                ScorchAll(ids, w).value.store[ids[k]].Player? && ScorchAll(ids, w).value.store[ids[k]].dead
    decreases |ids|
  {
    if |ids| > 0 && ScorchAll(ids, w).Ok? {
      var r1 := Scorch(ids[0], w);
      ScorchSettles(ids[0], w);
      var w1 := r1.value;
      var r := ScorchAll(ids[1..], w1);
      assert ScorchAll(ids, w) == r;
      ScorchAllKills(ids[1..], w1);
      ScorchAllSettles(ids[1..], w1);
      forall k | 0 <= k < |ids| && w.store[ids[k]].Player?
        ensures r.value.store[ids[k]].Player? && r.value.store[ids[k]].dead
      {
        if k > 0 {
          assert ids[k] == ids[1..][k - 1];
        }
      }
    }
  }

  /** A Flame that completes its tick has marked dead every Player the
      previous index lists at its cell. */
  lemma FlameKillsPlayers(id: Id, w: Work, index: Index)
    requires Ready(id, w, index) && w.store[id].Flame?
    ensures FlameTick(id, w, index).Ok? && w.store[id].Cell() in index ==>
              var ids := index[w.store[id].Cell()];
              forall k :: 0 <= k < |ids| && w.store[ids[k]].Player? ==>
                FlameTick(id, w, index).value.store[ids[k]].Player?
                && FlameTick(id, w, index).value.store[ids[k]].dead
  {
    var f := w.store[id];
    if Remove(w, f).Ok? && f.Cell() in index {
      ScorchAllKills(index[f.Cell()], Remove(w, f).value);
    }
  }

  lemma RemoveKeepsAbsent(w: Work, e: Entity, wall: Entity)
    requires Valid(w) && !Holds(w, wall) && Remove(w, e).Ok?
    ensures !Holds(Remove(w, e).value, wall)
  {
    var r := Remove(w, e).value;
    var i :| && 0 <= i < |w.objs| && w.store[w.objs[i]] == e
             && (forall j :: 0 <= j < i ==> w.store[w.objs[j]] != e)
             && r.objs == Delete(w.objs, i);
    forall k | 0 <= k < |r.objs|
      ensures r.store[r.objs[k]] != wall
    {
      assert r.objs[k] == w.objs[if k < i then k else k + 1];
    }
  }

  /** Nothing a Flame does to the entities at its cell brings back a Wall
      that is no longer listed. */
  lemma ScorchKeepsAbsent(id: Id, w: Work, wall: Entity)
    requires Valid(w) && id < |w.store| && wall.Wall? && !Holds(w, wall)
    ensures Scorch(id, w).Ok? ==> !Holds(Scorch(id, w).value, wall)
  {
    var e := w.store[id];
    match e
    case Wall(_, _, _) =>
      if Scorch(id, w).Ok? {
        RemoveKeepsAbsent(w, e, wall);
      }
    case Flame(_, _, _) =>
    case Player(x, y, z, _) =>
      var r := Put(w, id, Player(x, y, z, true));
      forall k | 0 <= k < |r.objs|
        ensures r.store[r.objs[k]] != wall
      {
        assert r.objs[k] == w.objs[k];
      }
    case _ =>
      var flames := BlastFlames(e);
      var base := if Holds(w, e) then Remove(w, e).value.objs else w.objs;
      assert Detonate(id, w).objs == base + Fresh(|w.store|, |flames|);
      if Holds(w, e) {
        RemoveKeepsAbsent(w, e, wall);
        assert Remove(w, e).value == Work(base, w.store);
      }
      AppendFlamesAbsent(base, w.store, flames, wall);
  }

  lemma {:induction false} ScorchAllMissingWall(ids: seq<Id>, w: Work, wall: Entity, k: nat)
    requires Valid(w) && ValidIds(ids, |w.store|) && wall.Wall? && !Holds(w, wall)
    requires k < |ids| && w.store[ids[k]] == wall
    ensures ScorchAll(ids, w) == Err(ValueError)
    decreases |ids|
  {
    var r1 := Scorch(ids[0], w);
    if w.store[ids[0]] == wall {
      assert r1 == Remove(w, wall);
    } else if r1.Ok? {
      ScorchAllCons(ids, w);
      MissingWallLater(ids, w, wall, k);
      ScorchAllMissingWall(ids[1..], r1.value, wall, k - 1);
    }
  }

  /** The reaction loop after a successful first reaction. */
  lemma ScorchAllCons(ids: seq<Id>, w: Work)
    requires Valid(w) && ValidIds(ids, |w.store|) && |ids| > 0 && Scorch(ids[0], w).Ok?
    ensures ValidIds(ids[1..], |Scorch(ids[0], w).value.store|)
    ensures ScorchAll(ids, w) == ScorchAll(ids[1..], Scorch(ids[0], w).value)
  {
  }

  /** One reaction that is not to the missing Wall keeps it missing and
      keeps it listed further on. */
  lemma MissingWallLater(ids: seq<Id>, w: Work, wall: Entity, k: nat)
    requires Valid(w) && ValidIds(ids, |w.store|) && wall.Wall? && !Holds(w, wall)
    requires k < |ids| && w.store[ids[k]] == wall
    requires w.store[ids[0]] != wall && Scorch(ids[0], w).Ok?
    ensures 0 < k && Scorch(ids[0], w).value.store[ids[k]] == wall
    ensures !Holds(Scorch(ids[0], w).value, wall)
  {
    ScorchSettles(ids[0], w);
    ScorchKeepsAbsent(ids[0], w, wall);
  }

  /** A Flame whose cell lists a Wall that is no longer in the collection
      (another Flame removed it earlier in the step) raises ValueError. */
  lemma FlameOnVanishedWall(id: Id, w: Work, index: Index, k: nat)
    requires Ready(id, w, index) && w.store[id].Flame?
    requires w.store[id].Cell() in index && k < |index[w.store[id].Cell()]|
    requires w.store[index[w.store[id].Cell()][k]].Wall?
    requires !Holds(w, w.store[index[w.store[id].Cell()][k]])
    ensures FlameTick(id, w, index) == Err(ValueError)
  {
    var f := w.store[id];
    var wall := w.store[index[f.Cell()][k]];
    if Remove(w, f).Ok? {
      RemoveKeepsAbsent(w, f, wall);
      ScorchAllMissingWall(index[f.Cell()], Remove(w, f).value, wall, k);
    }
  }
}

=== FILE: ticks.dfy ===
/** The per-entity `tick` rules and the two `detonate` rules.

    Every rule receives the working collection `w` (shared by the whole
    step), the key of the step and the PREVIOUS step's index; it reads the
    ticked entity's current value from the store, exactly as a Python method
    reads `self`. */
module Ticks {
  import opened Wrappers
  import opened Entities
  import opened Collection
  import opened SpatialIndex

  /** Precondition shared by every rule: the ticked id and every id of the
      collection and of the previous index name stored entities. */
  predicate Ready(id: Id, w: Work, index: Index) {
    Valid(w) && id < |w.store| && IndexValid(index, |w.store|)
  }

  // ---------------------------------------------------------------- blasts

  /** The five flames `Bomb.detonate` appends: centre, right, left, below, above. */
  function CrossFlames(x: int, y: int): seq<Entity> {
    [Flame(x, y, TopZ), Flame(x + 1, y, TopZ), Flame(x - 1, y, TopZ),
     Flame(x, y + 1, TopZ), Flame(x, y - 1, TopZ)]
  }

  /** The 36 flames `TNT.detonate` appends: `i` and `j` both run over
      `range(-3, 3)`, `i` in the outer loop. Flame `k` has offsets
      `i = k / 6 - 3` and `j = k % 6 - 3`. */
  function BlockFlames(x: int, y: int): seq<Entity> {
    seq(36, k requires 0 <= k < 36 => Flame(x + (k / 6 - 3), y + (k % 6 - 3), TopZ))
  }

  /** Shared shape of both `detonate` methods: append the flames, then remove
      the detonating entity only if a value-equal entry is still listed. A
      repeated detonation therefore appends again but removes nothing more. */
  function Blast(w: Work, e: Entity, flames: seq<Entity>): (r: Work)
    requires Valid(w)
    requires forall k :: 0 <= k < |flames| ==> flames[k].Flame?
    requires !e.Flame?
    ensures Valid(r)
    ensures r.store == w.store + flames
    ensures !Holds(w, e) ==> r.objs == w.objs + Fresh(|w.store|, |flames|)
    ensures Holds(w, e) ==>
              r.objs == Remove(w, e).value.objs + Fresh(|w.store|, |flames|)
  {
    BlastObjs(w, e, flames);
    RemoveIfPresent(SpawnAll(w, flames), e)
  }

  lemma BlastObjs(w: Work, e: Entity, flames: seq<Entity>)
    requires Valid(w)
    requires forall k :: 0 <= k < |flames| ==> flames[k].Flame?
    requires !e.Flame?
    ensures !Holds(w, e) ==>
              RemoveIfPresent(SpawnAll(w, flames), e).objs == w.objs + Fresh(|w.store|, |flames|)
    ensures Holds(w, e) ==>
              RemoveIfPresent(SpawnAll(w, flames), e).objs == Remove(w, e).value.objs + Fresh(|w.store|, |flames|)
  {
    var w1 := SpawnAll(w, flames);
    var more := Fresh(|w.store|, |flames|);
    FirstIndexAppend(w.objs, w.store, more, w1.store, e);
    match FirstIndex(w.objs, w.store, e)
    case None =>
    case Some(i) => DeleteAppend(w.objs, more, i);
  }

  /** Appending entries that are not equal to `e` does not move the first
      entry equal to `e`. */
  lemma {:induction false} FirstIndexAppend(objs: seq<Id>, store: seq<Entity>, more: seq<Id>, store2: seq<Entity>, e: Entity)
    requires ValidIds(objs, |store|) && |store| <= |store2|
    requires forall j :: 0 <= j < |store| ==> store2[j] == store[j]
    requires ValidIds(more, |store2|)
    requires forall k :: 0 <= k < |more| ==> store2[more[k]] != e
    ensures ValidIds(objs + more, |store2|)
    ensures FirstIndex(objs + more, store2, e) == FirstIndex(objs, store, e)
    decreases |objs|
  {
    var all := objs + more;
    if |objs| == 0 {
      assert all == more;
    } else {
      assert all[0] == objs[0] && store2[objs[0]] == store[objs[0]];
      assert all[1..] == objs[1..] + more;
      FirstIndexAppend(objs[1..], store, more, store2, e);
    }
  }

  /** The flames a detonating Bomb or TNT appends. */
  function BlastFlames(e: Entity): (flames: seq<Entity>)
    requires e.Bomb? || e.TNT?
    ensures forall k :: 0 <= k < |flames| ==> flames[k].Flame?
  {
    if e.Bomb? then CrossFlames(e.x, e.y) else BlockFlames(e.x, e.y)
  }

  /** `Bomb.detonate` and `TNT.detonate`, called on the entity behind `id`. */
  function Detonate(id: Id, w: Work): (r: Work)
    requires Valid(w) && id < |w.store|
    requires w.store[id].Bomb? || w.store[id].TNT?
    ensures Valid(r) && |r.store| >= |w.store|
  {
    Blast(w, w.store[id], BlastFlames(w.store[id]))
  }

  // ---------------------------------------------------------------- flames

  /** What a Flame does to one entity listed at its cell in the previous
      index: a Wall is removed (ValueError if it is already gone), a Bomb or
      TNT detonates, a Player is marked dead, another Flame is ignored. */
  function Scorch(id: Id, w: Work): (r: Result<Work>)
    requires Valid(w) && id < |w.store|
    ensures r.Ok? ==> Valid(r.value) && |r.value.store| >= |w.store|
    ensures w.store[id].Wall? ==> (r.Ok? <==> Holds(w, w.store[id]))
    ensures w.store[id].Wall? ==> r == Remove(w, w.store[id])
    ensures w.store[id].Flame? ==> r == Ok(w)
    ensures (w.store[id].Bomb? || w.store[id].TNT?) ==>
              && r.Ok?
              && r.value.store == w.store + BlastFlames(w.store[id])
              && r.value.objs == (if Holds(w, w.store[id]) then Remove(w, w.store[id]).value.objs else w.objs)
                                 + Fresh(|w.store|, |BlastFlames(w.store[id])|)
    ensures w.store[id].Player? ==>
              r.Ok? && r.value.objs == w.objs && |r.value.store| == |w.store| &&
              r.value.store[id].Player? && r.value.store[id].dead &&
              r.value.store[id].Cell() == w.store[id].Cell() && r.value.store[id].z == w.store[id].z &&
              (forall j :: 0 <= j < |w.store| && j != id ==> r.value.store[j] == w.store[j])
  {
    match w.store[id]
    case Wall(_, _, _) => Remove(w, w.store[id])
    case Flame(_, _, _) => Ok(w)
    case Bomb(_, _, _, _) => Ok(Detonate(id, w))
    case TNT(_, _, _) => Ok(Detonate(id, w))
    case Player(_, _, _, _) => var p := w.store[id]; Ok(Put(w, id, Player(p.x, p.y, p.z, true)))
  }

  /** The reaction loop of `Flame.tick`, over the ids listed at the cell. */
  function ScorchAll(ids: seq<Id>, w: Work): (r: Result<Work>)
    requires Valid(w) && ValidIds(ids, |w.store|)
    ensures r.Ok? ==> Valid(r.value) && |r.value.store| >= |w.store|
    decreases |ids|
  {
    if |ids| == 0 then Ok(w)
    else
      var w1 :- Scorch(ids[0], w);
      ScorchAll(ids[1..], w1)
  }

  /** `Flame.tick`: remove itself (first value-equal entry), then react with
      everything the previous index lists at its cell. */
  function FlameTick(id: Id, w: Work, index: Index): (r: Result<Work>)
    requires Ready(id, w, index) && w.store[id].Flame?
    ensures r.Ok? ==> Valid(r.value) && |r.value.store| >= |w.store|
    ensures !Holds(w, w.store[id]) ==> r == Err(ValueError)
  {
    var f := w.store[id];
    var w1 :- Remove(w, f);
    if f.Cell() in index then ScorchAll(index[f.Cell()], w1) else Ok(w1)
  }

  // ---------------------------------------------------------------- bombs

  /** `Bomb.tick`: detonate when the countdown is zero, otherwise count down.
      A negative countdown keeps decreasing and never detonates. */
  function BombTick(id: Id, w: Work): (r: Work)
    requires Valid(w) && id < |w.store| && w.store[id].Bomb?
    ensures Valid(r) && |r.store| >= |w.store|
    ensures w.store[id].secs != 0 ==>
              && r.objs == w.objs
              && |r.store| == |w.store|
              && r.store[id] == Bomb(w.store[id].x, w.store[id].y, w.store[id].z, w.store[id].secs - 1)
              && forall j :: 0 <= j < |w.store| && j != id ==> r.store[j] == w.store[j]
    ensures w.store[id].secs == 0 ==> r == Detonate(id, w)
  {
    var b := w.store[id];
    if b.secs == 0 then Detonate(id, w)
    else Put(w, id, Bomb(b.x, b.y, b.z, b.secs - 1))
  }

  // ---------------------------------------------------------------- player

  predicate IsArrow(key: string) {
    key == "Left" || key == "Right" || key == "Up" || key == "Down"
  }

  /** Offset a key moves the player by; `(0, 0)` for every non-arrow key. */
  function Heading(key: string): (d: (int, int))
    ensures IsArrow(key) ==> (d.0 == 0 <==> d.1 != 0) && -1 <= d.0 <= 1 && -1 <= d.1 <= 1
    ensures key == "Left" ==> d.0 < 0
    ensures key == "Right" ==> d.0 > 0
    ensures key == "Up" ==> d.1 < 0
    ensures key == "Down" ==> d.1 > 0
    ensures !IsArrow(key) ==> d == (0, 0)
  {
    if key == "Left" then (-1, 0)
    else if key == "Right" then (1, 0)
    else if key == "Up" then (0, -1)
    else if key == "Down" then (0, 1)
    else (0, 0)
  }

  /** The previous index lists a Wall at cell `c`. */
  predicate WallAt(index: Index, store: seq<Entity>, c: Pos)
    requires IndexValid(index, |store|)
  {
    c in index && exists i :: 0 <= i < |index[c]| && store[index[c][i]].Wall?
  }

  /** `Player.tick`: a dead player does nothing; `a` drops a Bomb and `d` a
      TNT on the player's cell; the player then steps to the cell the key
      points at unless the previous index lists a Wall there. */
  function PlayerTick(id: Id, w: Work, key: string, index: Index): (r: Work)
    requires Ready(id, w, index) && w.store[id].Player?
    ensures Valid(r) && |r.store| >= |w.store|
    ensures w.store[id].dead ==> r == w
    ensures !w.store[id].dead ==>
              var p := w.store[id];
              var target := (p.x + Heading(key).0, p.y + Heading(key).1);
              && r.store[id] == (if WallAt(index, w.store, target) then p
                                 else Player(target.0, target.1, p.z, p.dead))
              && (key == "a" ==> r.objs == w.objs + [|w.store|] && |r.store| == |w.store| + 1
                                 && r.store[|w.store|] == Bomb(p.x, p.y, TopZ, BombFuse))
              && (key == "d" ==> r.objs == w.objs + [|w.store|] && |r.store| == |w.store| + 1
                                 && r.store[|w.store|] == TNT(p.x, p.y, TopZ))
              && (key != "a" && key != "d" ==> r.objs == w.objs && |r.store| == |w.store|)
              && forall j :: 0 <= j < |w.store| && j != id ==> r.store[j] == w.store[j]
  {
    var p := w.store[id];
    if p.dead then w
    else
      var (dx, dy) := Heading(key);
      var w1 := if key == "a" then Spawn(w, Bomb(p.x, p.y, TopZ, BombFuse))
                else if key == "d" then Spawn(w, TNT(p.x, p.y, TopZ))
                else w;
      if WallAt(index, w1.store, (p.x + dx, p.y + dy)) then w1
      else Put(w1, id, Player(p.x + dx, p.y + dy, p.z, p.dead))
  }

  // ---------------------------------------------------------------- dispatch

  /** `obj.tick(objs, ev, query)`: dispatch on the kind of the entity. Walls
      and TNT do nothing on their own. */
  function Tick(id: Id, w: Work, key: string, index: Index): (r: Result<Work>)
    requires Ready(id, w, index)
    ensures r.Ok? ==> Valid(r.value) && |r.value.store| >= |w.store|
    ensures w.store[id].Wall? || w.store[id].TNT? ==> r == Ok(w)
    ensures w.store[id].Bomb? ==> r == Ok(BombTick(id, w))
    ensures w.store[id].Player? ==> r == Ok(PlayerTick(id, w, key, index))
    ensures w.store[id].Flame? ==> r == FlameTick(id, w, index)
    ensures r.Err? ==> w.store[id].Flame?
  {
    match w.store[id]
    case Wall(_, _, _) => Ok(w)
    case Flame(_, _, _) => FlameTick(id, w, index)
    case Bomb(_, _, _, _) => Ok(BombTick(id, w))
    case TNT(_, _, _) => Ok(w)
    case Player(_, _, _, _) => Ok(PlayerTick(id, w, key, index))
  }
}

=== FILE: wall_facts.dfy ===
/** Walls over a whole step: a Wall entry leaves the collection only through
    the reaction of a Flame that was listed when the step began, one entry per
    time the previous index lists that Wall at such a Flame's cell. */
module WallFacts {
  import opened Wrappers
  import opened Entities
  import opened Collection
  import opened SpatialIndex
  import opened Ticks
  import opened Rogue
  import opened ReactionFacts

  // ---------------------------------------------------------------- reference definitions

  /** How many Wall entries equal to `v` the Flames among `ids` burn: for each
      Flame whose cell the index lists, the number of listings of `v` there. */
  function Burnt(ids: seq<Id>, store: seq<Entity>, index: Index, v: Entity): (n: nat)
    requires ValidIds(ids, |store|) && IndexValid(index, |store|)
    ensures n == 0 <==>
              forall k :: 0 <= k < |ids| && store[ids[k]].Flame? && store[ids[k]].Cell() in index ==>
                Count(index[store[ids[k]].Cell()], store, v) == 0
    decreases |ids|
  {
    if |ids| == 0 then 0
    else
      assert forall k :: 0 < k < |ids| ==> ids[k] == ids[1..][k - 1];
      Burns(ids[0], store, index, v) + Burnt(ids[1..], store, index, v)
  }

  /** What one entity burns of `v` when it is ticked. */
  function Burns(id: Id, store: seq<Entity>, index: Index, v: Entity): nat
    requires id < |store| && IndexValid(index, |store|)
  {
    var e := store[id];
    if e.Flame? && e.Cell() in index then Count(index[e.Cell()], store, v) else 0
  }

  /** `s` extends `s0`; an entry of `s0` differs in `s` only when both are
      Players or both are Bombs. This is the frame of a whole tick loop, where
      Bomb countdowns also change; `OnlyPlayersChange` is the tighter frame of
      a single reaction loop, which also fixes every Bomb. */
  ghost predicate Drift(s0: seq<Entity>, s: seq<Entity>) {
    && |s0| <= |s|
    && forall j :: 0 <= j < |s0| ==>
         s[j] == s0[j] || (s0[j].Player? && s[j].Player?) || (s0[j].Bomb? && s[j].Bomb?)
  }

  // ---------------------------------------------------------------- helpers

  lemma DriftTrans(s0: seq<Entity>, s1: seq<Entity>, s2: seq<Entity>)
    requires Drift(s0, s1) && Drift(s1, s2)
    ensures Drift(s0, s2)
  {
    forall j | 0 <= j < |s0|
      ensures s2[j] == s0[j] || (s0[j].Player? && s2[j].Player?) || (s0[j].Bomb? && s2[j].Bomb?)
    {
      assert s1[j] == s0[j] || (s0[j].Player? && s1[j].Player?) || (s0[j].Bomb? && s1[j].Bomb?);
    }
  }

  /** What one entity burns is the same in any drifted store. */
  lemma BurnsDrift(id: Id, s0: seq<Entity>, s: seq<Entity>, index: Index, v: Entity)
    requires id < |s0| && IndexValid(index, |s0|) && Drift(s0, s) && v.Wall?
    ensures IndexValid(index, |s|)
    ensures Burns(id, s, index, v) == Burns(id, s0, index, v)
  {
    if s0[id].Flame? && s0[id].Cell() in index {
      CountSame(index[s0[id].Cell()], s0, s, v);
    }
  }

  // ---------------------------------------------------------------- one tick

  /** A tick burns exactly what `Burns` says: nothing unless the entity is a
      Flame, and then one entry per listing of `v` at its cell. The store only
      drifts. */
  lemma TickWalls(id: Id, w: Work, key: string, index: Index, v: Entity)
    requires Ready(id, w, index) && v.Wall?
    ensures Tick(id, w, key, index).Ok? ==>
              var r := Tick(id, w, key, index).value;
              && Count(r.objs, r.store, v) + Burns(id, w.store, index, v) == Count(w.objs, w.store, v)
              && Drift(w.store, r.store)
  {
    var e := w.store[id];
    var r := Tick(id, w, key, index);
    if r.Ok? {
      var w' := r.value;
      match e
      case Wall(_, _, _) =>
      case TNT(_, _, _) =>
      case Flame(_, _, _) =>
        FlameTickEffect(id, w, index, v);
        var listed := if e.Cell() in index then index[e.Cell()] else [];
        ScorchAllAppends(listed, Remove(w, e).value);
      case Bomb(_, _, _, _) =>
        if e.secs == 0 {
          assert Scorch(id, w) == Ok(w');
          ScorchCountsWall(id, w, v);
          ScorchAppends(id, w);
        } else {
          CountSame(w.objs, w.store, w'.store, v);
        }
      case Player(_, _, _, _) =>
        PlayerWalls(id, w, key, index, v);
    }
  }

  /** A Player's tick moves or kills nothing but itself and appends at most
      a Bomb or a TNT, so it removes no Wall. */
  lemma PlayerWalls(id: Id, w: Work, key: string, index: Index, v: Entity)
    requires Ready(id, w, index) && w.store[id].Player? && v.Wall?
    ensures var r := PlayerTick(id, w, key, index);
            Count(r.objs, r.store, v) == Count(w.objs, w.store, v) && Drift(w.store, r.store)
  {
    var r := PlayerTick(id, w, key, index);
    CountSame(w.objs, w.store, r.store, v);
    if r.objs != w.objs {
      var n := |w.store|;
      assert r.objs == w.objs + [n] && r.store[n] != v;
      CountAppend(w.objs, [n], r.store, v);
    }
  }

  // ---------------------------------------------------------------- the tick loop

  /** Ticking `ids` burns, for every Wall value, the sum of what each of them
      burns, measured in the store the step began with. */
  lemma {:induction false} TickAllWalls(ids: seq<Id>, w: Work, key: string, index: Index, v: Entity, s0: seq<Entity>)
    requires Valid(w) && ValidIds(ids, |s0|) && IndexValid(index, |s0|) && Drift(s0, w.store) && v.Wall?
    requires ValidIds(ids, |w.store|) && IndexValid(index, |w.store|)
    ensures TickAll(ids, w, key, index).Ok? ==>
              var r := TickAll(ids, w, key, index).value;
              && Count(r.objs, r.store, v) + Burnt(ids, s0, index, v) == Count(w.objs, w.store, v)
              && Drift(s0, r.store)
    decreases |ids|
  {
    if |ids| > 0 && TickAll(ids, w, key, index).Ok? {
      var w1 := Tick(ids[0], w, key, index).value;
      assert TickAll(ids, w, key, index) == TickAll(ids[1..], w1, key, index);
      TickWalls(ids[0], w, key, index, v);
      BurnsDrift(ids[0], s0, w.store, index, v);
      DriftTrans(s0, w.store, w1.store);
      TickAllWalls(ids[1..], w1, key, index, v, s0);
    }
  }

  // ---------------------------------------------------------------- a step

  /** Over a completed step, the entries equal to a Wall value drop by exactly
      the number of times the previous index lists that Wall at the cell of a
      Flame listed when the step began. So a Wall entry is removed if and only
      if such a Flame's cell lists it. */
  lemma StepWalls(g: Game, key: string, g': Game, frame: string, v: Entity)
    requires WellFormed(g) && Step(g, key) == Ok((g', frame)) && v.Wall?
    ensures ValidIds(g'.objects, |g'.store|)
    ensures Count(g'.objects, g'.store, v) + Burnt(g.objects, g.store, g.index, v)
            == Count(g.objects, g.store, v)
  {
    StepParts(g, key, g', frame);
    TickAllWalls(g.objects, Work(g.objects, g.store), key, g.index, v, g.store);
  }

  /** A Wall value no old Flame's indexed cell lists keeps every entry. */
  lemma StepKeepsUnburntWalls(g: Game, key: string, g': Game, frame: string, v: Entity)
    requires WellFormed(g) && Step(g, key) == Ok((g', frame)) && v.Wall?
    requires forall k :: 0 <= k < |g.objects| && g.store[g.objects[k]].Flame?
                         && g.store[g.objects[k]].Cell() in g.index ==>
                           forall j :: 0 <= j < |g.index[g.store[g.objects[k]].Cell()]| ==>
                             g.store[g.index[g.store[g.objects[k]].Cell()][j]] != v
    ensures ValidIds(g'.objects, |g'.store|)
    ensures Count(g'.objects, g'.store, v) == Count(g.objects, g.store, v)
  {
    StepWalls(g, key, g', frame, v);
  }
}

=== FILE: wrappers.dfy ===
/** Failure-compatible result types shared by the whole model.

    The game raises two kinds of exceptions from inside the simulation:
    `list.remove` of an absent entity raises ValueError, and the renderer
    dereferences `None` (AttributeError) when no entity at an occupied cell
    has a positive z. Both are modelled as `Err` values. */
module Wrappers {

  datatype Option<+T> = None | Some(value: T)

  datatype Error =
    | ValueError      // list.remove(x): x not in list
    | AttributeError  // 'NoneType' object has no attribute 'char'

  datatype Result<+T> = Ok(value: T) | Err(error: Error) {

    predicate IsFailure() {
      Err?
    }

    function PropagateFailure<U>(): Result<U>
      requires Err?
    {
      Err(error)
    }

    function Extract(): T
      requires Ok?
    {
      value
    }
  }
}
